=== FILE: README.md ===
# Devbook snippet runner: session and output model

A Dafny model of the client-side logic behind Devbook's embedded code-snippet
runner:

- the `useSession` hook, as a state machine (`Session`, `Ports`). It opens an
  SDK session for a snippet, tracks the connection state and the snippet's
  execution state, and starts and stops runs. It collects the streamed
  stdout/stderr lines and filters the port scans the sandbox reports.
- the `Output` component (`OutputBlock`). `extractJSON` looks for the first
  `{ … }` stretch of text that parses as JSON. The component shows either the
  n-th JSON value of the joined output or its n-th line.
- the two `Code` components (`CodeBlock`, `DashboardCodeBlock`, with
  `Explanation` and `CodeCommon`). They keep a per-block output log. They clear
  it on `run`, turn a failed process start into a stderr line, and derive the
  highlighted and indicated line sets from the explanation entries. `writeFile`
  replaces the credential placeholders.
- the board editor's item map (`Board`): `move`, `add` and the drop handler.
- `usePublishedCodeSnippet` (`PublishedSnippet`): the props URL and the parsing
  of the fetched environment variables, with a fallback to `{}`.

Supporting modules: `Wrappers` (`Option`, standing for `undefined`), `Json`
(JSON values, and the `Parser` type that stands for `JSON.parse`), `Seqs`
(sequence facts), `JsString` (the ECMAScript string built-ins the code calls:
`indexOf`, `lastIndexOf`, `substring`, `slice`, `replace`, `join`, with `split`
as the inverse of `join`) and `ProcessOutput` (the SDK's `OutResponse`).

How the model is built:

- Every React state variable is a field of an immutable record.
- Every effect, callback and promise continuation is a function from the old
  record to the new one. The environment applies these functions in the order
  it delivers events.
- The hook compares SDK session objects by identity. The model gives each one a
  `Handle` whose serial is drawn from a counter in the state. Two sessions are
  the same exactly when their handles are equal.

The dashboard's `Code.tsx` derives its line sets the same way as the published
one (apps/dashboard/src/components/AppPage/mdxComponents/Code.tsx:68-85). Its
`writeFile` is identical too (same file, lines 129-139). Both are modelled by
the `Explanation` and `CodeCommon` members cited below.

Behaviour of the code that the model keeps:

- Only the connection record is protected by the identity check. A callback
  from a superseded session still sets the snippet state
  (`onDisconnect`/`onReconnect`/`onClose`/`onStateChange`), appends output and
  updates the ports.
- The run trigger is never cleared. `triggerRun` dispatches whenever a trigger
  exists, the output is empty and the recorded session has its code-snippet
  manager. It does not look at the connection state. The model takes the SDK
  to create that manager when the session's own `open()` resolves, so a
  session counts as ready from its `OpenResolved` callback on.
- The port list is not deduplicated. The change check can miss a change when
  the stored list repeats an entry (`Ports.RepeatedStoredEntryHidesChange`).
- A new session does not reset the snippet state, the output, the ports or the
  trigger.

## Model

| member | source | states |
|---|---|---|
| Session.InitSession | utils/useSession.ts:85-160 | no session without a snippet id, or with persistent edits but no API key; otherwise a fresh session identity (the serial counter advances by one), recorded as closed under the snippet's id, legacy SDK exactly for the two listed ids, opened at once unless `manualOpen`; snippet state, output, ports and trigger untouched |
| Session.OnCallback | utils/useSession.ts:96-150 | a callback from a session other than the recorded one never changes the connection record; stdout, stderr and port-scan callbacks change only the output log or the ports; disconnect gives Loading, reconnect Stopped, close Failed, state change copies its state, whatever the sender; output lines are appended at the end; a rejected open changes nothing |
| Session.Run | utils/useSession.ts:183-188 | a no-op unless open; when open it empties the output, sets Running and records the trigger, and touches nothing else; Running is reached only from an open connection |
| Session.TriggerDispatch | utils/useSession.ts:71-83 | a run is handed to the current session exactly when a trigger exists, the output is empty and that session's own `open()` has resolved (its code-snippet manager exists), with the trigger's code and env vars |
| Session.ApplyReply | utils/useSession.ts:75-77 | only a defined reply overwrites the snippet state; nothing else changes |
| Session.Stop | utils/useSession.ts:174-181 | a no-op unless open; when open, the snippet state becomes Loading and the stop goes to the current session exactly when its code-snippet manager exists; nothing else changes |
| Session.GetHostname | utils/useSession.ts:190-193 | undefined unless open; when open, the current session's answer, and a defined answer implies an open record that names a session |
| Session.HostnameFollowsRecordedSession | utils/useSession.ts:147-160 | right after a session is created there is no hostname, nor after another session's `open()` resolves; once the new session's own `open()` resolves the hostname is that session's answer |
| Session.ManualOpen | utils/useSession.ts:147-160 | the exposed `open` exists only for a manually opened session and opens that very session |
| Session.ManualOpenStaysBound | utils/useSession.ts:147-160 | with `manualOpen`, the exposed `open` is the new session's, and stays so across any callbacks from any session |
| Session.AutomaticOpenExposesNothing | utils/useSession.ts:155-160 | without `manualOpen` no `open` is exposed and the session is opened at once |
| Session.DispatchWaitsForOpen | utils/useSession.ts:71-83 | a pending trigger is not dispatched right after a session is created, nor after another session's `open()` resolves; it goes to the new session once its own `open()` resolves |
| Session.NextPreservesInv | utils/useSession.ts:131-160 | every step keeps the record well-formed: an open record names a session, the id is that session's snippet, and the session was issued before |
| Session.ExecPreservesInv | utils/useSession.ts:60-193 | every state reachable from the initial one is well-formed |
| Session.InitialIsWellFormed | utils/useSession.ts:60-69 | the hook's initial state is well-formed |
| Session.OutputAppendsInOrder | utils/useSession.ts:99-104 | a run of stdout/stderr callbacks appends their events at the end of the log in delivery order, none lost or reordered |
| Session.StaleCallbacksKeepRecord | utils/useSession.ts:131-150 | any number of callbacks from a superseded session leave the connection record unchanged |
| Session.ReplacedSessionGoesStale | utils/useSession.ts:131-160 | in a well-formed state, creating a new session stops recording the old one, so none of the old session's callbacks can change the connection record again |
| Session.CallbacksKeepSessionIdentity | utils/useSession.ts:131-150 | callbacks never change which session or id the record names |
| Session.DisconnectReconnectScenario | utils/useSession.ts:131-138 | open, then disconnect gives closed and Loading, then reconnect gives open and Stopped |
| Session.FailedOpenStaysClosed | utils/useSession.ts:147-153 | a failed `open()` of a new session leaves it closed |
| Session.RunTwiceScenario | utils/useSession.ts:183-188 | two runs in a row leave an empty log and dispatch the second code; a line arriving afterwards blocks another dispatch |
| Ports.FilterPorts | utils/useSession.ts:108-117 | every kept port is LISTEN on 0.0.0.0 or 127.0.0.1 and is neither 49982 nor 22; every such port of the scan is kept as often as it occurs; the result is an order-preserving sublist of the scan |
| Ports.UpdatePorts | utils/useSession.ts:118-128 | the result is the stored list when the lengths agree and every stored port has a field-wise match, and the new list otherwise |
| Ports.PermutedScanKeepsStored | utils/useSession.ts:118-128 | a filtered scan that is a permutation of the stored list leaves the stored list in place |
| Ports.UpdateIdempotent | utils/useSession.ts:118-128 | applying the same filtered scan twice changes nothing the second time |
| Ports.DistinctStoredDetectsChange | utils/useSession.ts:118-128 | with a duplicate-free stored list, the list is kept only when the new one is a permutation of it |
| Ports.RepeatedStoredEntryHidesChange | utils/useSession.ts:123-126 | stored [A, A] against new [A, B] keeps [A, A], although the lists differ |
| Ports.ScanExample | utils/useSession.ts:108-117 | the three-port scan keeps only 0.0.0.0:3000; 10.0.0.5 fails the address check and 49982 is the daemon port |
| OutputBlock.ExtractJson | apps/devbook-apps/src/components/AppPage/mdxComponents/Output.tsx:7-31 | the answer starts at the first `{` (or -1 when the text has none) for which some candidate parses. It ends just after the right-most `}` that works for that start, and carries the parse of that candidate. There is no answer only when no start and no `}` give a parseable candidate. It agrees with `Extract` |
| OutputBlock.Extract | apps/devbook-apps/src/components/AppPage/mdxComponents/Output.tsx:7-31 | the same description, for the recursive form the content selection uses |
| OutputBlock.SearchOpens | apps/devbook-apps/src/components/AppPage/mdxComponents/Output.tsx:10-30 | the outer loop: the answer is the first start from the current one with a parseable candidate; it gives up once no `}` lies after the start |
| OutputBlock.SearchCloses | apps/devbook-apps/src/components/AppPage/mdxComponents/Output.tsx:16-28 | the inner loop: the right-most `}` at or before the current close whose candidate parses, or none at all |
| OutputBlock.ExtractionIsUnique | apps/devbook-apps/src/components/AppPage/mdxComponents/Output.tsx:7-31 | at most one answer meets the description |
| OutputBlock.NoBraceNoMatch | apps/devbook-apps/src/components/AppPage/mdxComponents/Output.tsx:11-15 | text without `}` never yields a match |
| OutputBlock.SelectJson | apps/devbook-apps/src/components/AppPage/mdxComponents/Output.tsx:52-63 | the `for` loop over the joined output returns the position-th match. Each search runs on the text after the previous match. A failed search or a position below 1 gives undefined |
| OutputBlock.NthJsonComesFromBlob | apps/devbook-apps/src/components/AppPage/mdxComponents/Output.tsx:52-63 | every JSON value shown is the parse of a stretch of the joined output that ends in `}` |
| OutputBlock.EarlierMatchesExist | apps/devbook-apps/src/components/AppPage/mdxComponents/Output.tsx:54-62 | the (n+1)-th JSON value exists only if the n-th does |
| OutputBlock.OutputContent | apps/devbook-apps/src/components/AppPage/mdxComponents/Output.tsx:41-70 | no output gives nothing; `position` defaults to 1; JSON mode shows a value exactly when the position-th match of the joined output exists, and shows that match's value; line mode shows a line exactly when 1 <= position <= length, and shows `output[position-1]` |
| OutputBlock.DefaultPositionIsFirst | apps/devbook-apps/src/components/AppPage/mdxComponents/Output.tsx:41-70 | without `position`, JSON mode shows the first match of the joined output and line mode its first line |
| OutputBlock.JsonContentFromOutput | apps/devbook-apps/src/components/AppPage/mdxComponents/Output.tsx:49-63 | a value shown in JSON mode is the parse of a stretch of the joined output that ends in `}` |
| OutputBlock.NoOutputNoContent | apps/devbook-apps/src/components/AppPage/mdxComponents/Output.tsx:49-70 | with no output, or an empty one, nothing is shown in either mode at any position |
| OutputBlock.LineModeSelectsLine | apps/devbook-apps/src/components/AppPage/mdxComponents/Output.tsx:64-68 | line mode shows something exactly when 1 <= position <= length (position 1 by default), and what it shows is a line of the output |
| Explanation.FlatLines | apps/devbook-apps/src/components/AppPage/mdxComponents/Code.tsx:119-131 | a value is in the flattened list exactly when some present (and, for highlighting, enabled) entry contributes it; an entry without a line list contributes `undefined` |
| Explanation.HighlightedLines | apps/devbook-apps/src/components/AppPage/mdxComponents/Code.tsx:124-127 | duplicate-free; holds exactly the values of present, enabled entries |
| Explanation.IndicatedLines | apps/devbook-apps/src/components/AppPage/mdxComponents/Code.tsx:128-130 | duplicate-free; holds exactly the values of all present entries |
| Explanation.HighlightedWithinIndicated | apps/devbook-apps/src/components/AppPage/mdxComponents/Code.tsx:118-132 | every highlighted value is indicated, so there are never more highlighted values than indicated ones |
| Explanation.AllEnabledSameLines | apps/devbook-apps/src/components/AppPage/mdxComponents/Code.tsx:118-132 | when every present entry is enabled the two sets coincide |
| CodeCommon.WriteFile | apps/devbook-apps/src/components/AppPage/mdxComponents/Code.tsx:187-199 | a write happens exactly when there is a file name and a session filesystem; it targets that file and writes the content with its placeholders replaced; content without placeholders is written unchanged |
| CodeCommon.ReplacePlaceholders | apps/devbook-apps/src/components/AppPage/mdxComponents/Code.tsx:191-193 | the first username placeholder is replaced by the username expression, then the first password placeholder of that result by the password expression; all other text is kept; with no placeholder a step keeps its text |
| JsString.ReplaceFirst | apps/devbook-apps/src/components/AppPage/mdxComponents/Code.tsx:191-192 | `replace` with a string pattern: the text is unchanged when the pattern does not occur; otherwise only its first occurrence is replaced and the text around it is kept |
| JsString.FirstReplacementUnique | apps/devbook-apps/src/components/AppPage/mdxComponents/Code.tsx:191-192 | that description fixes the result: two results that meet it are equal |
| CodeCommon.FirstUsernameReplaced | apps/devbook-apps/src/components/AppPage/mdxComponents/Code.tsx:191-192 | only the first username placeholder is replaced; the text before and after it is kept |
| CodeBlock.AppendOutput | apps/devbook-apps/src/components/AppPage/mdxComponents/Code.tsx:134-139 | the event goes to the end of the local log; its line goes to the end of the shared output, which starts as `[line]` when absent; the shared list stays the mirror of the local one |
| CodeBlock.Run | apps/devbook-apps/src/components/AppPage/mdxComponents/Code.tsx:141-170 | no-op without `onRun` or a session; otherwise both logs are emptied, the block is running, and `onRun(code)` is started exactly when a process API exists |
| CodeBlock.SettleStart | apps/devbook-apps/src/components/AppPage/mdxComponents/Code.tsx:150-163 | a started process is remembered; a rejection appends one stderr event carrying the error to the local log and the error text to the end of the shared output, keeping the process; `isRunning` is unchanged |
| CodeBlock.OnExit | apps/devbook-apps/src/components/AppPage/mdxComponents/Code.tsx:154-154 | process exit clears `isRunning` and nothing else |
| CodeBlock.AppendAllInOrder | apps/devbook-apps/src/components/AppPage/mdxComponents/Code.tsx:134-139 | a batch of events lands in arrival order at the end of both logs, none lost; an empty batch changes nothing |
| CodeBlock.AppendAllKeepsMirror | apps/devbook-apps/src/components/AppPage/mdxComponents/Code.tsx:134-139 | while this block is the only writer, the shared output stays the list of the lines of the local log |
| CodeBlock.RunThenStream | apps/devbook-apps/src/components/AppPage/mdxComponents/Code.tsx:141-164 | after an accepted run, the local log and the shared output hold exactly the events (and lines) appended after the run |
| CodeBlock.RejectedStartLogsError | apps/devbook-apps/src/components/AppPage/mdxComponents/Code.tsx:156-164 | a start rejected right after `run()` leaves exactly one stderr line, the error, in both logs, with the block still marked running |
| DashboardCodeBlock.AppendOutput | apps/dashboard/src/components/AppPage/mdxComponents/Code.tsx:87-89 | the event is appended at the end of the local log only |
| DashboardCodeBlock.Run | apps/dashboard/src/components/AppPage/mdxComponents/Code.tsx:91-117 | no-op without `onRun` or a session; otherwise the log is emptied, the block is running, and `onRun(code)` is started exactly when a process API exists |
| DashboardCodeBlock.SettleStart | apps/dashboard/src/components/AppPage/mdxComponents/Code.tsx:97-110 | a started process is remembered; a rejection appends one stderr event carrying the error and keeps the process |
| DashboardCodeBlock.OnExit | apps/dashboard/src/components/AppPage/mdxComponents/Code.tsx:101-101 | process exit clears `isRunning` and keeps the log |
| DashboardCodeBlock.AppendAllInOrder | apps/dashboard/src/components/AppPage/mdxComponents/Code.tsx:87-89 | streamed events are kept in arrival order, none lost |
| DashboardCodeBlock.RejectedStartLogsError | apps/dashboard/src/components/AppPage/mdxComponents/Code.tsx:103-111 | a start rejected right after `run()` leaves exactly the one stderr event |
| Board.InitialItems | components/Editor/Board/Container.tsx:31-32 | the map starts as the given items, or empty when none are given |
| Board.Move | components/Editor/Board/Container.tsx:34-45 | only `left` and `top` of entry `id` change; its other fields, the key set and every other entry are kept; a missing entry makes the update fail |
| Board.Add | components/Editor/Board/Container.tsx:47-60 | entry `id` becomes exactly `{left, top, id, componentType}`; the keys are the old keys plus `id`; other entries are unchanged |
| Board.MoveBackRestores | components/Editor/Board/Container.tsx:34-45 | moving an item and moving it back restores the original map |
| Board.MoveAfterAdd | components/Editor/Board/Container.tsx:34-60 | moving a just-added item equals adding it at the new position |
| Board.AddLastWins | components/Editor/Board/Container.tsx:47-60 | a second `add` under the same id replaces the first entirely |
| Board.Drop | components/Editor/Board/Container.tsx:75-115 | a board drop without an offset delta changes nothing and a board drop never changes the key set; a sidebar drop never fails, and every key it creates starts with `ui_` |
| PublishedSnippet.PropsUrl | src/hooks/usePublishedCodeSnippet.ts:30-33 | the URL starts with `https://embed.usedevbook.com/<id>/props`; with no inserted ids it is exactly that; otherwise the comma-joined ids follow directly |
| PublishedSnippet.InsertedIdsRecoverable | src/hooks/usePublishedCodeSnippet.ts:30-33 | splitting the URL's tail on commas gives the inserted ids back when none contains a comma |
| PublishedSnippet.UrlDistinguishesInsertedIds | src/hooks/usePublishedCodeSnippet.ts:30-33 | different comma-free id lists give different URLs |
| PublishedSnippet.ParseEnvVars | src/hooks/usePublishedCodeSnippet.ts:40-47 | env-var text that parses gives its value; a non-text field or a parse error gives `{}` |
| PublishedSnippet.Resolve | src/hooks/usePublishedCodeSnippet.ts:37-53 | undefined exactly when nothing was fetched; otherwise the env vars are parsed with the fallback |
| PublishedSnippet.ResolveCopiesOtherFields | src/hooks/usePublishedCodeSnippet.ts:49-52 | every other fetched field is copied unchanged |

## Left out

- React effect scheduling and dependency lists. The model does not say when
  `triggerRun`, `initSession`, `autorun` or `writeInitialFile` fire. The
  environment applies the corresponding step functions.
- SDK internals are not modelled: session construction, `open`/`close`,
  `codeSnippet.run`/`stop`, `getHostname`, `process.start`, `proc.kill`
  (the blocks' `stop`) and `filesystem.write`. They appear as handles, requests
  and settled outcomes supplied from outside. Closing a superseded session is
  visible only through the callbacks it may still fire.
- `JSON.parse` is a `Parser` argument. JSON numbers are integers here.
- `onlyUnique` and `notEmpty` are not part of this model. They are taken with
  their usual meaning: keep first occurrences; drop `null`/`undefined`.
- `Object.values` order: the explanation entries are given as a list in
  enumeration order.
- Explanation.HighlightedLines: states membership and distinctness, not the
  first-occurrence order that `onlyUnique` produces.
- Explanation.IndicatedLines: same as above.
- `path.join(rootdir, file)`: `utils/constants` is not part of this model.
  `CodeCommon.WriteFile` records the file name relative to the root.
- CodeBlock.RunThenStream: assumes this block is the only writer of
  `appCtx.Code.output`. That list belongs to the whole app, so another `Code`
  block, or a process this block started earlier, can append to it through
  its own callbacks; the model does not interleave such writers.
- CodeBlock.AppendAllKeepsMirror: the same single-writer assumption.
- `String.prototype.replace` treats its replacement literally here. The two
  replacement texts contain no `$` patterns.
- `Math.round`, `snapToGrid`, `nanoid`, `Date.now` and the drop target's
  bounding box are arguments (`snapLeft`/`snapTop`, `nonce`, `timestamp`,
  `target`). Floating-point board coordinates are not modelled.
- OutputBlock.OutputContent: `position` is taken to be an integer. The prop is
  typed `number`, and for a fractional value the component shows nothing in
  either mode: line mode reads a non-index such as `output[0.5]`, and JSON mode
  never meets `i === position`. The model cannot express such a position.
- CodeBlock.SettleStart, DashboardCodeBlock.SettleStart: the rejection value of
  a failed process start is modelled by its text. The components store the raw
  value, usually an `Error` object, as the event's `line`. In the published app
  it also reaches `appCtx.Code.output`, where line mode shows the value itself
  and JSON mode sees it through `join('')`.
- Ports.FilterPorts and Ports.UpdatePorts assume `OpenedPort` has exactly the
  fields `Ip`, `Port` and `State`, so the field-wise match is equality.
- The `debug` and `editEnabled` options, the terminal manager, clipboard copy,
  line hover and click handlers, logging and all rendering.

=== FILE: board.dfy ===
/**
  The board editor's item map (`useBoardItems`) and the drop handler that
  feeds it: dragging a placed component moves it, dropping a sidebar icon
  adds a new component.
 */
module Board {
  import opened Wrappers

  datatype BoardItem = BoardItem(id: string, left: int, top: int, componentType: string)

  /** `ItemMap`: board items by id. */
  type ItemMap = map<string, BoardItem>

  /** The map the hook starts with: the given items, `{}` when none are given. */
  function InitialItems(initItems: Option<ItemMap>): (r: ItemMap)
    ensures initItems.None? ==> r == map[]
    ensures initItems.Some? ==> r == initItems.value
  {
    initItems.GetOr(map[])
  }

  /**
    `move({id, left, top})`: `$merge` of the new position into entry `id`.
    Merging into a missing entry makes the update helper throw (`None`).
   */
  function Move(items: ItemMap, id: string, left: int, top: int): (r: Option<ItemMap>)
    ensures r.None? <==> id !in items
    ensures r.Some? ==> && r.value.Keys == items.Keys
                        && r.value[id] == items[id].(left := left, top := top)
                        && forall k :: k in items && k != id ==> r.value[k] == items[k]
  {
    if id !in items then None
    else Some(items[id := items[id].(left := left, top := top)])
  }

  /** `add({componentType, id, left, top})`: `$set` of entry `id` to exactly those four fields. */
  function Add(items: ItemMap, componentType: string, id: string, left: int, top: int): (r: ItemMap)
    ensures r.Keys == items.Keys + {id}
    ensures r[id].id == id && r[id] == BoardItem(id, left, top, componentType)
    ensures forall k :: k in items && k != id ==> r[k] == items[k]
  {
    items[id := BoardItem(id, left, top, componentType)]
  }

  /** Moving an item and moving it back to where it was gives the original map. */
  lemma MoveBackRestores(items: ItemMap, id: string, left: int, top: int)
    requires id in items
    ensures Move(Move(items, id, left, top).value, id, items[id].left, items[id].top) == Some(items)
  {
    var moved := Move(items, id, left, top).value;
    var back := Move(moved, id, items[id].left, items[id].top).value;
    assert back[id] == items[id];
    assert back == items;
  }

  /** Moving an item that was just added is the same as adding it at the new position. */
  lemma MoveAfterAdd(items: ItemMap, componentType: string, id: string, left: int, top: int, left2: int, top2: int)
    ensures Move(Add(items, componentType, id, left, top), id, left2, top2) == Some(Add(items, componentType, id, left2, top2))
  {
    var added := Add(items, componentType, id, left, top);
    assert added[id := added[id].(left := left2, top := top2)] == Add(items, componentType, id, left2, top2);
  }

  /** A second `add` under the same id replaces the first entirely. */
  lemma AddLastWins(items: ItemMap, c1: string, c2: string, id: string, l1: int, t1: int, l2: int, t2: int)
    ensures Add(Add(items, c1, id, l1, t1), c2, id, l2, t2) == Add(items, c2, id, l2, t2)
  {
  }

  datatype Offset = Offset(x: int, y: int)

  /** The two drag types the board accepts. */
  datatype DragType = BoardComponentType | SidebarIconType

  /**
    A drop: what was dragged, the drag's offset from its start position, and
    the cursor's position (either may be unknown).
   */
  datatype DropEvent = DropEvent(kind: DragType, item: BoardItem, delta: Option<Offset>, clientOffset: Option<Offset>)

  /** Prefix of the ids of components created from the sidebar. */
  const NewItemPrefix: string := "ui_"

  /**
    The `drop` handler. `target` is the drop target's top-left corner (`None`
    before the element is mounted), `nonce` the random suffix of a new id,
    and `snapLeft`/`snapTop` stand for rounding and `snapToGrid`.
   */
  function Drop(items: ItemMap, ev: DropEvent, target: Option<Offset>, nonce: string,
                snapLeft: int -> int, snapTop: int -> int): (r: Option<ItemMap>)
    ensures ev.kind == BoardComponentType && ev.delta.None? ==> r == Some(items)
    ensures ev.kind == BoardComponentType && r.Some? ==> r.value.Keys == items.Keys
    ensures ev.kind == SidebarIconType ==> r.Some?
    ensures r.Some? ==> forall k :: k in r.value && k !in items ==> |k| >= 3 && k[..3] == NewItemPrefix
    ensures ev.kind == SidebarIconType && ev.clientOffset.Some? && target.Some? ==>
              r.value.Keys == items.Keys + {NewItemPrefix + nonce}
  {
    match ev.kind
    case BoardComponentType =>
      (match ev.delta
       case None => Some(items)
       case Some(d) =>
         Move(items, ev.item.id, snapLeft(ev.item.left + d.x), snapTop(ev.item.top + d.y)))
    case SidebarIconType =>
      if ev.clientOffset.None? || target.None? then Some(items)
      else
        var o := ev.clientOffset.value;
        var t := target.value;
        var id := NewItemPrefix + nonce;
        Some(Add(items, ev.item.componentType, id, snapLeft(o.x - t.x), snapTop(o.y - t.y)))
  }
}

=== FILE: code_block.dfy ===
/**
  The `Code` component of the published apps: a runnable block that keeps
  its own output list and mirrors each line into `appCtx.Code.output`, where
  `Output` blocks read it.
 */
module CodeBlock {
  import opened Wrappers
  import opened ProcessOutput
  import opened CodeCommon
  import Seqs

  /** `output`, `appCtx.Code.output`, `isRunning` and `proc`. */
  datatype BlockState = BlockState(
    output: seq<OutResponse>,
    shared: Option<seq<string>>,
    isRunning: bool,
    proc: Option<nat>)

  /** The shared list holds exactly the lines of this block's events. */
  predicate Mirrored(s: BlockState) {
    s.shared.GetOr([]) == Lines(s.output)
  }

  /** `appendOutput(out)`: the event goes to the end of the local list, its line to the end of the shared one. */
  function AppendOutput(s: BlockState, out: OutResponse): (r: BlockState)
    ensures r.output == s.output + [out]
    ensures r.shared.Some? && r.shared.value == s.shared.GetOr([]) + [out.line]
    ensures r.isRunning == s.isRunning && r.proc == s.proc
    ensures Mirrored(s) ==> Mirrored(r)
  {
    var shared := match s.shared
      case Some(lines) => lines + [out.line]
      case None => [out.line];
    s.(output := s.output + [out], shared := Some(shared))
  }

  datatype RunStep = RunStep(state: BlockState, started: Option<string>)

  /**
    `run()`: nothing without `onRun` or a session. Otherwise both output
    lists are cleared, the command `onRun(code)` is handed to the process API
    when there is one (`started`), and the block is marked running.
   */
  function Run(s: BlockState, onRun: Option<string -> string>, code: string, session: Option<SharedSession>): (r: RunStep)
    ensures onRun.None? || session.None? ==> r.state == s && r.started.None?
    ensures onRun.Some? && session.Some? ==>
              && r.state.output == [] && r.state.shared == Some([])
              && r.state.isRunning && r.state.proc == s.proc
    ensures r.started.Some? <==> onRun.Some? && session.Some? && session.value.hasProcess
    ensures r.started.Some? ==> r.started.value == onRun.value(code)
    ensures Mirrored(s) ==> Mirrored(r.state)
  {
    if onRun.None? || session.None? then RunStep(s, None)
    else
      var cmd := onRun.value(code);
      var cleared := s.(output := [], shared := Some([]));
      var started := if session.value.hasProcess then Some(cmd) else None;
      RunStep(cleared.(isRunning := true), started)
  }

  /**
    The start promise settling: a process is remembered; a rejection is
    logged as one synthetic stderr event carrying the error. Neither changes
    `isRunning`.
   */
  function SettleStart(s: BlockState, outcome: StartOutcome): (r: BlockState)
    ensures r.isRunning == s.isRunning
    ensures outcome.Started? ==> r.output == s.output && r.shared == s.shared && r.proc == Some(outcome.proc)
    ensures outcome.Rejected? ==>
              && r.output == s.output + [OutResponse(Stderr, outcome.error, outcome.timestamp)]
              && r.shared == Some(s.shared.GetOr([]) + [outcome.error])
              && r.proc == s.proc
    ensures Mirrored(s) ==> Mirrored(r)
  {
    match outcome
    case Started(p) => s.(proc := Some(p))
    case Rejected(error, timestamp) => AppendOutput(s, OutResponse(Stderr, error, timestamp))
  }

  /** The process's `onExit`: the block is no longer running. */
  function OnExit(s: BlockState): (r: BlockState)
    ensures !r.isRunning
    ensures r.(isRunning := s.isRunning) == s
  {
    s.(isRunning := false)
  }

  /** Events streamed into the block, in arrival order. */
  function AppendAll(s: BlockState, outs: seq<OutResponse>): BlockState
    decreases |outs|
  {
    if |outs| == 0 then s else AppendAll(AppendOutput(s, outs[0]), outs[1..])
  }

  /** Appending a non-empty batch appends its first event, then the rest. */
  lemma AppendAllStep(s: BlockState, outs: seq<OutResponse>)
    requires |outs| > 0
    ensures AppendAll(s, outs) == AppendAll(AppendOutput(s, outs[0]), outs[1..])
  {
  }

  /** Appending a batch puts its events, in arrival order, at the end of the local list. */
  lemma {:induction false} AppendAllOutput(s: BlockState, outs: seq<OutResponse>)
    ensures AppendAll(s, outs).output == s.output + outs
    ensures |outs| == 0 ==> AppendAll(s, outs) == s
    decreases |outs|
  {
    if |outs| > 0 {
      var t := AppendOutput(s, outs[0]);
      AppendAllStep(s, outs);
      AppendAllOutput(t, outs[1..]);
      Seqs.ConsAfter(s.output, outs);
    }
  }

  /** Appending a non-empty batch puts its lines, in arrival order, at the end of the shared list. */
  lemma {:induction false} AppendAllShared(s: BlockState, outs: seq<OutResponse>)
    requires |outs| > 0
    ensures AppendAll(s, outs).shared == Some(s.shared.GetOr([]) + Lines(outs))
    decreases |outs|
  {
    var t := AppendOutput(s, outs[0]);
    AppendAllStep(s, outs);
    LinesCons(outs);
    if |outs| > 1 {
      AppendAllShared(t, outs[1..]);
      Seqs.ConsAfter(s.shared.GetOr([]), Lines(outs));
    } else {
      assert Lines(outs) == [outs[0].line];
    }
  }

  /**
    Appending a batch keeps arrival order and drops nothing: the events go
    to the end of the local list and their lines to the end of the shared one.
   */
  lemma AppendAllInOrder(s: BlockState, outs: seq<OutResponse>)
    ensures AppendAll(s, outs).output == s.output + outs
    ensures |outs| > 0 ==> AppendAll(s, outs).shared == Some(s.shared.GetOr([]) + Lines(outs))
    ensures |outs| == 0 ==> AppendAll(s, outs) == s
  {
    AppendAllOutput(s, outs);
    if |outs| > 0 {
      AppendAllShared(s, outs);
    }
  }

  /** While this block is the only writer, the shared list stays the mirror of the local one. */
  lemma AppendAllKeepsMirror(s: BlockState, outs: seq<OutResponse>)
    requires Mirrored(s)
    ensures Mirrored(AppendAll(s, outs))
  {
    AppendAllInOrder(s, outs);
    LinesConcat(s.output, outs);
  }

  /** After an accepted run both lists hold exactly the events appended since. */
  lemma RunThenStream(s: BlockState, onRun: string -> string, code: string, session: SharedSession, outs: seq<OutResponse>)
    ensures var ran := Run(s, Some(onRun), code, Some(session)).state;
            && AppendAll(ran, outs).output == outs
            && AppendAll(ran, outs).shared == Some(Lines(outs))
  {
    var ran := Run(s, Some(onRun), code, Some(session)).state;
    AppendAllInOrder(ran, outs);
    if |outs| == 0 {
      assert Lines(outs) == [];
    } else {
      assert ran.shared.GetOr([]) + Lines(outs) == Lines(outs);
    }
  }

  /** A start that is rejected right after `run()` leaves exactly one stderr line: the error. */
  lemma RejectedStartLogsError(s: BlockState, onRun: string -> string, code: string, session: SharedSession, error: string, at: int)
    ensures var failed := SettleStart(Run(s, Some(onRun), code, Some(session)).state, Rejected(error, at));
            && failed.output == [OutResponse(Stderr, error, at)]
            && failed.shared == Some([error])
            && failed.isRunning
  {
    assert [] + [error] == [error];
  }
}

=== FILE: code_common.dfy ===
/**
  What the two `Code` components share: the shared SDK session they see,
  the outcome of starting a process, and `writeFile`'s placeholder
  replacement.
 */
module CodeCommon {
  import opened Wrappers
  import opened JsString

  /** The shared session, reduced to which of its APIs are present. */
  datatype SharedSession = SharedSession(hasProcess: bool, hasFilesystem: bool)

  /** How `session.process.start(...)` settles: a process, or a rejection carrying an error. */
  datatype StartOutcome =
    | Started(proc: nat)
    | Rejected(error: string, timestamp: int)

  /** The credentials placeholders of the proxy example, with their quotes. */
  const UsernamePlaceholder: string := "'yourUsername-country-US'"
  const UsernameExpression: string := "process.env.USERNAME + \"-country-US\""
  const PasswordPlaceholder: string := "'yourPassword'"
  const PasswordExpression: string := "process.env.PASSWORD"

  /**
    The two chained `replace` calls: the first username placeholder is
    replaced, then the first password placeholder of that result; all other
    text, later occurrences included, is kept.
   */
  function ReplacePlaceholders(content: string): (r: string)
    ensures exists mid :: && IsFirstReplacement(content, UsernamePlaceholder, UsernameExpression, mid)
                          && IsFirstReplacement(mid, PasswordPlaceholder, PasswordExpression, r)
  {
    var mid := ReplaceFirst(content, UsernamePlaceholder, UsernameExpression);
    ReplaceFirst(mid, PasswordPlaceholder, PasswordExpression)
  }

  /** A request to write `content` to `file` under the sandbox's root directory. */
  datatype FileWrite = FileWrite(file: string, content: string)

  /**
    `writeFile(content)`: nothing without a file name or without a session
    filesystem; otherwise the content with its placeholders replaced.
   */
  function WriteFile(file: Option<string>, content: string, session: Option<SharedSession>): (r: Option<FileWrite>)
    ensures r.Some? <==> file.Some? && file.value != "" && session.Some? && session.value.hasFilesystem
    ensures r.Some? ==> r.value.file == file.value
    ensures r.Some? ==> r.value.content == ReplacePlaceholders(content)
    ensures (&& r.Some?
             && (forall i :: !OccursAt(content, UsernamePlaceholder, i))
             && (forall i :: !OccursAt(content, PasswordPlaceholder, i)))
            ==> r.value.content == content
  {
    if file.None? || file.value == "" then None
    else if session.None? || !session.value.hasFilesystem then None
    else Some(FileWrite(file.value, ReplacePlaceholders(content)))
  }

  /**
    Only the first occurrence of the username placeholder is replaced:
    everything before it and after it is written as it was.
   */
  lemma FirstUsernameReplaced(content: string, i: int)
    requires OccursAt(content, UsernamePlaceholder, i)
    requires forall j :: 0 <= j < i ==> !OccursAt(content, UsernamePlaceholder, j)
    ensures ReplaceFirst(content, UsernamePlaceholder, UsernameExpression)
            == content[..i] + UsernameExpression + content[i + |UsernamePlaceholder|..]
  {
    var k := IndexOfSub(content, UsernamePlaceholder, 0);
    assert k == i;
  }
}

=== FILE: dashboard_code_block.dfy ===
/**
  The `Code` component of the dashboard: like the published one, but its
  output stays local to the block.
 */
module DashboardCodeBlock {
  import opened Wrappers
  import opened ProcessOutput
  import opened CodeCommon

  /** `output`, `isRunning` and `process`. */
  datatype BlockState = BlockState(output: seq<OutResponse>, isRunning: bool, proc: Option<nat>)

  /** `appendOutput(out)`: the event goes to the end of the local list. */
  function AppendOutput(s: BlockState, out: OutResponse): (r: BlockState)
    ensures |r.output| == |s.output| + 1
    ensures r.output[..|s.output|] == s.output && r.output[|s.output|] == out
    ensures r.isRunning == s.isRunning && r.proc == s.proc
  {
    s.(output := s.output + [out])
  }

  datatype RunStep = RunStep(state: BlockState, started: Option<string>)

  /**
    `run()`: nothing without `onRun` or a session; otherwise the output is
    cleared, `onRun(code)` is handed to the process API when there is one, and
    the block is marked running.
   */
  function Run(s: BlockState, onRun: Option<string -> string>, code: string, session: Option<SharedSession>): (r: RunStep)
    ensures onRun.None? || session.None? ==> r.state == s && r.started.None?
    ensures onRun.Some? && session.Some? ==> r.state.output == [] && r.state.isRunning && r.state.proc == s.proc
    ensures r.started.Some? <==> onRun.Some? && session.Some? && session.value.hasProcess
    ensures r.started.Some? ==> r.started.value == onRun.value(code)
  {
    if onRun.None? || session.None? then RunStep(s, None)
    else
      var cmd := onRun.value(code);
      var started := if session.value.hasProcess then Some(cmd) else None;
      RunStep(s.(output := [], isRunning := true), started)
  }

  /** The start promise settling: a process is remembered, a rejection logged as one stderr event. */
  function SettleStart(s: BlockState, outcome: StartOutcome): (r: BlockState)
    ensures r.isRunning == s.isRunning
    ensures outcome.Started? ==> r.output == s.output && r.proc == Some(outcome.proc)
    ensures outcome.Rejected? ==> r.output == s.output + [OutResponse(Stderr, outcome.error, outcome.timestamp)] && r.proc == s.proc
  {
    match outcome
    case Started(p) => s.(proc := Some(p))
    case Rejected(error, timestamp) => AppendOutput(s, OutResponse(Stderr, error, timestamp))
  }

  /** The process's `onExit`. */
  function OnExit(s: BlockState): (r: BlockState)
    ensures !r.isRunning && r.output == s.output && r.proc == s.proc
  {
    s.(isRunning := false)
  }

  function AppendAll(s: BlockState, outs: seq<OutResponse>): BlockState
    decreases |outs|
  {
    if |outs| == 0 then s else AppendAll(AppendOutput(s, outs[0]), outs[1..])
  }

  /** Streamed events are kept in arrival order, none dropped. */
  lemma {:induction false} AppendAllInOrder(s: BlockState, outs: seq<OutResponse>)
    ensures AppendAll(s, outs).output == s.output + outs
    decreases |outs|
  {
    if |outs| > 0 {
      AppendAllInOrder(AppendOutput(s, outs[0]), outs[1..]);
      assert s.output + outs == (s.output + [outs[0]]) + outs[1..];
    }
  }

  /** A start rejected right after `run()` leaves exactly the one stderr event. */
  lemma RejectedStartLogsError(s: BlockState, onRun: string -> string, code: string, session: SharedSession, error: string, at: int)
    ensures var failed := SettleStart(Run(s, Some(onRun), code, Some(session)).state, Rejected(error, at));
            failed.output == [OutResponse(Stderr, error, at)] && failed.isRunning
  {
  }
}

=== FILE: explanation.dfy ===
/**
  The line sets a code block derives from the explanation entries in the
  shared app context: highlighted lines come from enabled entries only,
  indicated lines from every entry.
 */
module Explanation {
  import opened Wrappers
  import opened Seqs

  /** One value of `appCtx.Explanation`; absent fields are `None`. */
  datatype Entry = Entry(highlightLines: Option<seq<int>>, enabled: Option<bool>)

  /**
    One element produced by `flatMap(v => v.highlightLines)`: a line number,
    or the `undefined` that `flatMap` keeps when an entry has no line list.
   */
  datatype LineValue = LineNo(n: int) | Undefined

  /** `v.enabled` is truthy. */
  predicate Enabled(e: Entry) {
    e.enabled == Some(true)
  }

  /** What one entry contributes to the flattened list. */
  function Contributed(e: Entry): seq<LineValue> {
    match e.highlightLines
    case None => [Undefined]
    case Some(ls) => seq(|ls|, i requires 0 <= i < |ls| => LineNo(ls[i]))
  }

  /** Entry `i` is present (`notEmpty`) and, when `onlyEnabled`, enabled. */
  predicate Selected(values: seq<Option<Entry>>, i: int, onlyEnabled: bool)
    requires 0 <= i < |values|
  {
    values[i].Some? && (!onlyEnabled || Enabled(values[i].value))
  }

  /**
    `Object.values(...).filter(notEmpty)[.filter(v => v.enabled)].flatMap(...)`,
    with `values` the entries in enumeration order.
   */
  function FlatLines(values: seq<Option<Entry>>, onlyEnabled: bool): (r: seq<LineValue>)
    ensures forall x :: x in r <==>
              exists i :: 0 <= i < |values| && Selected(values, i, onlyEnabled) && x in Contributed(values[i].value)
    decreases |values|
  {
    if |values| == 0 then []
    else
      var rest := FlatLines(values[1..], onlyEnabled);
      assert forall i :: 1 <= i < |values| ==> values[i] == values[1..][i - 1];
      var head := if Selected(values, 0, onlyEnabled) then Contributed(values[0].value) else [];
      assert forall x :: x in rest <==>
               exists i :: 1 <= i < |values| && Selected(values, i, onlyEnabled) && x in Contributed(values[i].value) by {
        forall x | x in rest
          ensures exists i :: 1 <= i < |values| && Selected(values, i, onlyEnabled) && x in Contributed(values[i].value)
        {
          var k :| 0 <= k < |values[1..]| && Selected(values[1..], k, onlyEnabled) && x in Contributed(values[1..][k].value);
          assert Selected(values, k + 1, onlyEnabled);
        }
        forall x, i | 1 <= i < |values| && Selected(values, i, onlyEnabled) && x in Contributed(values[i].value)
          ensures x in rest
        {
          assert Selected(values[1..], i - 1, onlyEnabled);
        }
      }
      head + rest
  }

  /** `highlightedLines`: distinct values drawn from present, enabled entries. */
  function HighlightedLines(values: seq<Option<Entry>>): (r: seq<LineValue>)
    ensures Distinct(r)
    ensures forall x :: x in r <==>
              exists i :: 0 <= i < |values| && Selected(values, i, true) && x in Contributed(values[i].value)
  {
    var flat := FlatLines(values, true);
    var r := Dedup(flat);
    assert forall x :: x in r <==> x in flat;
    r
  }

  /** `indicatedLines`: distinct values drawn from every present entry. */
  function IndicatedLines(values: seq<Option<Entry>>): (r: seq<LineValue>)
    ensures Distinct(r)
    ensures forall x :: x in r <==>
              exists i :: 0 <= i < |values| && Selected(values, i, false) && x in Contributed(values[i].value)
  {
    var flat := FlatLines(values, false);
    var r := Dedup(flat);
    assert forall x :: x in r <==> x in flat;
    r
  }

  /** Every highlighted value is also indicated, so there are never more highlighted than indicated values. */
  lemma HighlightedWithinIndicated(values: seq<Option<Entry>>)
    ensures forall x :: x in HighlightedLines(values) ==> x in IndicatedLines(values)
    ensures |HighlightedLines(values)| <= |IndicatedLines(values)|
  {
    var h := HighlightedLines(values);
    var d := IndicatedLines(values);
    forall x | x in h ensures x in d {
      var i :| 0 <= i < |values| && Selected(values, i, true) && x in Contributed(values[i].value);
      assert Selected(values, i, false);
    }
    ContainedCard(h, d);
  }

  /** When every present entry is enabled, both sets coincide. */
  lemma AllEnabledSameLines(values: seq<Option<Entry>>)
    requires forall i :: 0 <= i < |values| && values[i].Some? ==> Enabled(values[i].value)
    ensures forall x :: x in HighlightedLines(values) <==> x in IndicatedLines(values)
  {
    forall x | x in IndicatedLines(values) ensures x in HighlightedLines(values) {
      var i :| 0 <= i < |values| && Selected(values, i, false) && x in Contributed(values[i].value);
      assert Selected(values, i, true);
    }
  }
}

=== FILE: js_string.dfy ===
/**
  The JavaScript string built-ins the core relies on, with the index
  conventions of ECMAScript: a failed search answers -1, `substring` clamps
  and orders its bounds, `slice` counts a negative start from the end.
 */
module JsString {

  /** `s.indexOf(c, from)`: the first index at or after `from` holding `c`, or -1. */
  function IndexOf(s: string, c: char, from: nat): (r: int)
    ensures r == -1 || (from <= r < |s| && s[r] == c)
    ensures r == -1 ==> forall i :: from <= i < |s| ==> s[i] != c
    ensures r != -1 ==> forall i :: from <= i < r ==> s[i] != c
    decreases |s| - from
  {
    if from >= |s| then -1
    else if s[from] == c then from
    else IndexOf(s, c, from + 1)
  }

  /** `s.lastIndexOf(c)`: the last index holding `c`, or -1. */
  function LastIndexOf(s: string, c: char): (r: int)
    ensures -1 <= r < |s|
    ensures r >= 0 ==> s[r] == c
    ensures forall i :: r < i < |s| ==> s[i] != c
    decreases |s|
  {
    if |s| == 0 then -1
    else if s[|s| - 1] == c then |s| - 1
    else LastIndexOf(s[..|s| - 1], c)
  }

  function Clamp(i: int, len: nat): (r: nat)
    ensures r <= len
  {
    if i < 0 then 0 else if i > len then len else i
  }

  /** `s.substring(start, end)`: both bounds clamped to the string, then ordered. */
  function Substring(s: string, start: int, end: int): (r: string)
    ensures 0 <= start <= end <= |s| ==> r == s[start..end]
    ensures |r| <= |s|
  {
    var a := Clamp(start, |s|);
    var b := Clamp(end, |s|);
    if a <= b then s[a..b] else s[b..a]
  }

  /** `s.slice(begin)`: the suffix from `begin`, a negative `begin` counting from the end. */
  function Slice(s: string, begin: int): (r: string)
    ensures 0 <= begin <= |s| ==> r == s[begin..]
    ensures |r| <= |s|
  {
    if begin < 0 then s[Clamp(|s| + begin, |s|)..] else s[Clamp(begin, |s|)..]
  }

  /** `pat` occurs in `s` starting at index `i`. */
  predicate OccursAt(s: string, pat: string, i: int) {
    0 <= i && i + |pat| <= |s| && s[i..i + |pat|] == pat
  }

  /** `s.indexOf(pat, from)` for a string pattern: the first occurrence at or after `from`, or -1. */
  function IndexOfSub(s: string, pat: string, from: nat): (r: int)
    ensures r == -1 || (from <= r && OccursAt(s, pat, r))
    ensures r == -1 ==> forall i :: from <= i ==> !OccursAt(s, pat, i)
    ensures r != -1 ==> forall i :: from <= i < r ==> !OccursAt(s, pat, i)
    decreases |s| - from
  {
    if from + |pat| > |s| then -1
    else if s[from..from + |pat|] == pat then from
    else IndexOfSub(s, pat, from + 1)
  }

  /**
    `s.replace(pat, rep)` with a string pattern and a replacement free of
    `$` patterns: only the first occurrence of `pat` is replaced.
   */
  function ReplaceFirst(s: string, pat: string, rep: string): (r: string)
    ensures IsFirstReplacement(s, pat, rep, r)
  {
    var i := IndexOfSub(s, pat, 0);
    if i == -1 then s else s[..i] + rep + s[i + |pat|..]
  }

  /** `i` is where `pat` first occurs in `s`. */
  predicate FirstOccurrence(s: string, pat: string, i: int) {
    OccursAt(s, pat, i) && forall j :: 0 <= j < i ==> !OccursAt(s, pat, j)
  }

  /**
    `r` is `s` with the first occurrence of `pat` replaced by `rep`, or `s`
    itself when `pat` does not occur.
   */
  ghost predicate IsFirstReplacement(s: string, pat: string, rep: string, r: string) {
    || ((forall i :: !OccursAt(s, pat, i)) && r == s)
    || (exists i :: FirstOccurrence(s, pat, i) && r == s[..i] + rep + s[i + |pat|..])
  }

  /** The description pins the result down: there is only one first replacement. */
  lemma FirstReplacementUnique(s: string, pat: string, rep: string, r1: string, r2: string)
    requires IsFirstReplacement(s, pat, rep, r1) && IsFirstReplacement(s, pat, rep, r2)
    ensures r1 == r2
  {
    if exists i :: OccursAt(s, pat, i) {
      var i1 :| FirstOccurrence(s, pat, i1) && r1 == s[..i1] + rep + s[i1 + |pat|..];
      var i2 :| FirstOccurrence(s, pat, i2) && r2 == s[..i2] + rep + s[i2 + |pat|..];
      assert i1 == i2;
    }
  }

  /** `xs.join(sep)` for a one-character separator. */
  function Join(xs: seq<string>, sep: char): string
    decreases |xs|
  {
    if |xs| == 0 then ""
    else if |xs| == 1 then xs[0]
    else xs[0] + [sep] + Join(xs[1..], sep)
  }

  /** `s.split(sep)` for a one-character separator: the pieces between separators. */
  function Split(s: string, sep: char): (r: seq<string>)
    ensures |r| >= 1
    ensures forall k :: 0 <= k < |r| ==> sep !in r[k]
    decreases |s|
  {
    var i := IndexOf(s, sep, 0);
    if i == -1 then [s] else [s[..i]] + Split(s[i + 1..], sep)
  }

  /** Splitting a join gives the list back when no element contains the separator. */
  lemma {:induction false} SplitJoin(xs: seq<string>, sep: char)
    requires |xs| >= 1
    requires forall k :: 0 <= k < |xs| ==> sep !in xs[k]
    ensures Split(Join(xs, sep), sep) == xs
    decreases |xs|
  {
    if |xs| == 1 {
      assert Join(xs, sep) == xs[0];
      assert IndexOf(xs[0], sep, 0) == -1;
    } else {
      var s := Join(xs, sep);
      var x := xs[0];
      assert s == x + [sep] + Join(xs[1..], sep);
      assert forall i :: 0 <= i < |x| ==> s[i] == x[i];
      assert s[|x|] == sep;
      var i := IndexOf(s, sep, 0);
      assert i == |x|;
      assert s[..i] == x;
      assert s[i + 1..] == Join(xs[1..], sep);
      SplitJoin(xs[1..], sep);
      assert xs == [x] + xs[1..];
    }
  }
}

=== FILE: json.dfy ===
/**
  JSON values as RFC 8259 describes them. `JSON.parse` itself is not
  modelled: every operation that parses takes a `Parser` argument, a total
  function that answers `None` where `JSON.parse` would throw.
 */
module Json {
  import opened Wrappers

  datatype Json =
    | JNull
    | JBool(b: bool)
    | JNumber(n: int)
    | JString(s: string)
    | JArray(items: seq<Json>)
    | JObject(members: seq<(string, Json)>)

  /** `None` stands for a `SyntaxError` thrown by `JSON.parse`. */
  type Parser = string -> Option<Json>

  /** The literal `{}`. */
  const EmptyObject: Json := JObject([])
}

=== FILE: output_block.dfy ===
/**
  The `Output` component: `extractJSON`, which finds the first `{ … }`
  substring that parses as JSON, and the selection of the content to show
  (the n-th JSON blob of the concatenated output, or the n-th output line).
 */
module OutputBlock {
  import opened Wrappers
  import opened Json
  import opened JsString
  import Seqs

  /** `[value, start, end]`: the parsed value and the bounds of the candidate it came from. */
  datatype Match = Match(value: Json, start: int, end: int)

  /**
    A start index the search visits: a `{`, or -1 when the string has no `{`
    at all (`indexOf` answers -1 and the search still runs once).
   */
  ghost predicate IsOpenAt(str: string, o: int) {
    || (0 <= o < |str| && str[o] == '{')
    || (o == -1 && '{' !in str)
  }

  /** The candidate text `str.substring(o, c + 1)`. */
  function Candidate(str: string, o: int, c: int): string {
    Substring(str, o, c + 1)
  }

  /** Closing at `c`, a `}` after `o`, gives a candidate that parses. */
  ghost predicate Fits(str: string, parse: Parser, o: int, c: int) {
    && 0 <= c < |str|
    && o < c
    && str[c] == '}'
    && parse(Candidate(str, o, c)).Some?
  }

  /**
    What `extractJSON` answers. A match starts at the first visited start for
    which some candidate parses, ends just after the right-most `}` that works
    for that start, and carries the parsed value. No match means no visited
    start and no `}` give a candidate that parses.
   */
  ghost predicate IsExtraction(str: string, parse: Parser, r: Option<Match>) {
    match r
    case None =>
      forall o, c :: IsOpenAt(str, o) ==> !Fits(str, parse, o, c)
    case Some(m) =>
      && IsOpenAt(str, m.start)
      && Fits(str, parse, m.start, m.end - 1)
      && parse(Candidate(str, m.start, m.end - 1)) == Some(m.value)
      && (forall o, c :: IsOpenAt(str, o) && o < m.start ==> !Fits(str, parse, o, c))
      && (forall c :: m.end - 1 < c ==> !Fits(str, parse, m.start, c))
  }

  /** At most one answer meets the description, so any two searches agree. */
  lemma ExtractionIsUnique(str: string, parse: Parser, r1: Option<Match>, r2: Option<Match>)
    requires IsExtraction(str, parse, r1) && IsExtraction(str, parse, r2)
    ensures r1 == r2
  {
  }

  /**
    The inner loop of `extractJSON` as a recursion: try the candidate that
    closes at `close`, then the previous `}`, until the closes run out.
   */
  function SearchCloses(str: string, parse: Parser, open: int, close: int): (r: Option<Match>)
    requires -1 <= open && close < |str|
    requires close <= open || str[close] == '}'
    ensures r.Some? ==> && r.value.start == open
                        && Fits(str, parse, open, r.value.end - 1)
                        && r.value.end - 1 <= close
                        && parse(Candidate(str, open, r.value.end - 1)) == Some(r.value.value)
                        && forall c :: r.value.end - 1 < c <= close ==> !Fits(str, parse, open, c)
    ensures r.None? ==> forall c :: c <= close ==> !Fits(str, parse, open, c)
    decreases close + 1
  {
    if close <= open then None
    else
      match parse(Candidate(str, open, close))
      case Some(v) => Some(Match(v, open, close + 1))
      case None =>
        var prev := LastIndexOf(str[..close], '}');
        assert forall c :: prev < c < close ==> str[c] == str[..close][c];
        SearchCloses(str, parse, open, prev)
  }

  /** The outer loop of `extractJSON`: search each start in turn, from `open` on. */
  function SearchOpens(str: string, parse: Parser, open: int): (r: Option<Match>)
    requires IsOpenAt(str, open)
    ensures r.Some? ==> && IsOpenAt(str, r.value.start)
                        && open <= r.value.start
                        && Fits(str, parse, r.value.start, r.value.end - 1)
                        && parse(Candidate(str, r.value.start, r.value.end - 1)) == Some(r.value.value)
                        && (forall o, c :: IsOpenAt(str, o) && open <= o < r.value.start ==> !Fits(str, parse, o, c))
                        && (forall c :: r.value.end - 1 < c ==> !Fits(str, parse, r.value.start, c))
    ensures r.None? ==> forall o, c :: IsOpenAt(str, o) && open <= o ==> !Fits(str, parse, o, c)
    decreases |str| - open
  {
    var close := LastIndexOf(str, '}');
    BeyondLastClose(str, parse, open);
    if close <= open then None
    else
      match SearchCloses(str, parse, open, close)
      case Some(m) => Some(m)
      case None =>
        var next := IndexOf(str, '{', open + 1);
        SkipStart(str, parse, open, next);
        if next == -1 then None else SearchOpens(str, parse, next)
  }

  /** No candidate for `open` closes after the last `}` of the string. */
  lemma BeyondLastClose(str: string, parse: Parser, open: int)
    ensures forall c :: LastIndexOf(str, '}') < c ==> !Fits(str, parse, open, c)
  {
  }

  /** Leaving a start none of whose candidates parse, for the next `{` after it. */
  lemma SkipStart(str: string, parse: Parser, open: int, next: int)
    requires IsOpenAt(str, open)
    requires forall c :: !Fits(str, parse, open, c)
    requires open + 1 >= 0 && next == IndexOf(str, '{', open + 1)
    ensures next == -1 ==> forall o, c :: IsOpenAt(str, o) && open <= o ==> !Fits(str, parse, o, c)
    ensures next != -1 ==> && IsOpenAt(str, next) && open < next
                           && forall o, c :: IsOpenAt(str, o) && open <= o < next ==> !Fits(str, parse, o, c)
  {
  }

  /** `extractJSON(str)` as a function. */
  function Extract(str: string, parse: Parser): (r: Option<Match>)
    ensures IsExtraction(str, parse, r)
  {
    var first := IndexOf(str, '{', 0);
    SearchOpens(str, parse, first)
  }

  /** The search gives up: no `}` lies after the current start. */
  lemma NoCloseAfterOpen(str: string, parse: Parser, open: int)
    requires IsOpenAt(str, open)
    requires forall o, c :: IsOpenAt(str, o) && o < open ==> !Fits(str, parse, o, c)
    requires LastIndexOf(str, '}') <= open
    ensures IsExtraction(str, parse, None)
  {
  }

  /** Every close has been tried for `open` once the closes reach it. */
  lemma ClosesExhausted(str: string, parse: Parser, open: int, close: int)
    requires close <= open
    requires forall c :: close < c ==> !Fits(str, parse, open, c)
    ensures forall c :: !Fits(str, parse, open, c)
  {
  }

  /** Moving from a start with no fitting close to the next `{`. */
  lemma NextOpen(str: string, parse: Parser, open: int, next: int)
    requires IsOpenAt(str, open)
    requires forall o, c :: IsOpenAt(str, o) && o < open ==> !Fits(str, parse, o, c)
    requires forall c :: !Fits(str, parse, open, c)
    requires next == IndexOf(str, '{', open + 1)
    ensures next == -1 ==> IsExtraction(str, parse, None)
    ensures next != -1 ==> && IsOpenAt(str, next) && open < next
                           && forall o, c :: IsOpenAt(str, o) && o < next ==> !Fits(str, parse, o, c)
  {
  }

  /** Stepping the close back to the previous `}` after a failed candidate. */
  lemma PreviousClose(str: string, parse: Parser, open: int, close: int, prev: int)
    requires -1 <= open < close < |str| && str[close] == '}'
    requires forall c :: close < c ==> !Fits(str, parse, open, c)
    requires parse(Candidate(str, open, close)).None?
    requires prev == LastIndexOf(str[..close], '}')
    ensures -1 <= prev < close && (prev >= 0 ==> str[prev] == '}')
    ensures forall c :: prev < c ==> !Fits(str, parse, open, c)
  {
    assert forall c :: 0 <= c < close ==> str[c] == str[..close][c];
  }

  /**
    `extractJSON(str)` with the source's two loops. The start only moves
    forward and the close only moves backward, which bounds both loops.
   */
  method ExtractJson(str: string, parse: Parser) returns (r: Option<Match>)
    ensures IsExtraction(str, parse, r)
    ensures r == Extract(str, parse)
  {
    var open := IndexOf(str, '{', 0);
    while true
      invariant IsOpenAt(str, open)
      invariant forall o, c :: IsOpenAt(str, o) && o < open ==> !Fits(str, parse, o, c)
      decreases |str| - open
    {
      var close := LastIndexOf(str, '}');
      if close <= open {
        NoCloseAfterOpen(str, parse, open);
        r := None;
        break;
      }
      while true
        invariant open < close < |str| && str[close] == '}'
        invariant forall c :: close < c ==> !Fits(str, parse, open, c)
        decreases close
      {
        var candidate := Substring(str, open, close + 1);
        var parsed := parse(candidate);
        if parsed.Some? {
          r := Some(Match(parsed.value, open, close + 1));
          assert IsExtraction(str, parse, r);
          ExtractionIsUnique(str, parse, r, Extract(str, parse));
          return;
        }
        var prev := LastIndexOf(str[..close], '}');
        PreviousClose(str, parse, open, close, prev);
        close := prev;
        if close <= open {
          break;
        }
      }
      ClosesExhausted(str, parse, open, close);
      var next := IndexOf(str, '{', open + 1);
      NextOpen(str, parse, open, next);
      if next == -1 {
        r := None;
        break;
      }
      open := next;
    }
    ExtractionIsUnique(str, parse, r, Extract(str, parse));
  }

  /** `output.join('')`. */
  function Concat(lines: seq<string>): string
    decreases |lines|
  {
    if |lines| == 0 then "" else lines[0] + Concat(lines[1..])
  }

  /**
    JSON mode: the value of the `position`-th match, each search running on
    what follows the previous match (`blob.slice(end)`). A failed search, or a
    position below 1, gives no value.
   */
  function NthJson(blob: string, parse: Parser, position: int): Option<Json>
    decreases position
  {
    if position < 1 then None
    else
      match Extract(blob, parse)
      case None => None
      case Some(m) =>
        if position == 1 then Some(m.value)
        else NthJson(Slice(blob, m.end), parse, position - 1)
  }

  /** One round of JSON mode: a later position is searched for after the first match. */
  lemma NthJsonAfterFirst(blob: string, parse: Parser, position: int)
    requires position >= 2 && Extract(blob, parse).Some?
    ensures NthJson(blob, parse, position) == NthJson(Slice(blob, Extract(blob, parse).value.end), parse, position - 1)
  {
  }

  /** The loop's step: the value still sought is the next one after the current match. */
  lemma AdvanceSearch(blob: string, parse: Parser, left: int, parsed: Option<Match>, want: Option<Json>,
                      next: string, nextLeft: int)
    requires left >= 2 && parsed == Extract(blob, parse) && parsed.Some?
    requires want == NthJson(blob, parse, left)
    requires next == Slice(blob, parsed.value.end) && nextLeft == left - 1
    ensures want == NthJson(next, parse, nextLeft)
  {
    NthJsonAfterFirst(blob, parse, left);
  }

  /** The `for` loop of JSON mode, over the joined output. */
  method SelectJson(output: seq<string>, parse: Parser, position: int) returns (r: Option<Json>)
    ensures r == NthJson(Concat(output), parse, position)
  {
    ghost var want := NthJson(Concat(output), parse, position);
    var blob := Concat(output);
    var i := 1;
    ghost var left := position;
    while i <= position
      invariant 1 <= i
      invariant i == 1 || i <= position
      invariant left == position - i + 1
      invariant want == NthJson(blob, parse, left)
      decreases position - i
    {
      var parsed := ExtractJson(blob, parse);
      if parsed.None? {
        return None;
      }
      if i == position {
        return Some(parsed.value.value);
      }
      ghost var prev, prevLeft := blob, left;
      blob := Slice(blob, parsed.value.end);
      i, left := i + 1, left - 1;
      AdvanceSearch(prev, parse, prevLeft, parsed, want, blob, left);
    }
    return None;
  }

  /** `blob[i..j]` is a stretch ending in `}` whose parse is `v`. */
  predicate IsStretch(blob: string, parse: Parser, i: int, j: int, v: Option<Json>) {
    && 0 <= i < j <= |blob|
    && blob[j - 1] == '}'
    && parse(blob[i..j]) == v
  }

  /** A match is the parse of a stretch of the string that ends in `}`. */
  lemma MatchIsStretch(blob: string, parse: Parser) returns (i: int, j: int)
    requires Extract(blob, parse).Some?
    ensures j == Extract(blob, parse).value.end
    ensures IsStretch(blob, parse, i, j, Some(Extract(blob, parse).value.value))
  {
    var m := Extract(blob, parse).value;
    i, j := if m.start < 0 then 0 else m.start, m.end;
    assert blob[i..j] == Candidate(blob, m.start, m.end - 1);
  }

  /** A stretch of a suffix of the blob is a stretch of the blob itself. */
  lemma ShiftStretch(blob: string, k: int, i: int, j: int, parse: Parser, v: Option<Json>)
    returns (a: int, b: int)
    requires 0 <= k <= |blob| && IsStretch(blob[k..], parse, i, j, v)
    ensures a == k + i && b == k + j
    ensures IsStretch(blob, parse, a, b, v)
  {
    a, b := k + i, k + j;
    Seqs.SliceOfSuffix(blob, k, i, j);
  }

  /**
    Where JSON mode's `position`-th value comes from: the first match, which
    is the stretch `blob[start..end]`, or what follows it.
   */
  lemma NthJsonSplit(blob: string, parse: Parser, position: int) returns (start: int, end: int)
    requires NthJson(blob, parse, position).Some?
    ensures 0 <= end <= |blob|
    ensures position == 1 ==> IsStretch(blob, parse, start, end, NthJson(blob, parse, position))
    ensures position >= 2 ==> NthJson(blob, parse, position) == NthJson(blob[end..], parse, position - 1)
  {
    start, end := MatchIsStretch(blob, parse);
    if position >= 2 {
      NthJsonAfterFirst(blob, parse, position);
    }
  }

  /** The stretch of the blob whose parse JSON mode shows at `position`. */
  lemma {:induction false} NthJsonStretch(blob: string, parse: Parser, position: int) returns (i: int, j: int)
    requires NthJson(blob, parse, position).Some?
    ensures IsStretch(blob, parse, i, j, NthJson(blob, parse, position))
    decreases position
  {
    var start, end := NthJsonSplit(blob, parse, position);
    if position == 1 {
      i, j := start, end;
    } else {
      var i', j' := NthJsonStretch(blob[end..], parse, position - 1);
      i, j := ShiftStretch(blob, end, i', j', parse, NthJson(blob, parse, position));
    }
  }

  /** Every value JSON mode shows is the parse of a stretch of the blob ending in `}`. */
  lemma NthJsonComesFromBlob(blob: string, parse: Parser, position: int)
    requires NthJson(blob, parse, position).Some?
    ensures exists i, j :: && 0 <= i < j <= |blob|
                           && blob[j - 1] == '}'
                           && parse(blob[i..j]) == NthJson(blob, parse, position)
  {
    var i, j := NthJsonStretch(blob, parse, position);
  }

  /** Matches are found in sequence: the (n+1)-th exists only if the n-th does. */
  lemma {:induction false} EarlierMatchesExist(blob: string, parse: Parser, position: int)
    requires position >= 1
    ensures NthJson(blob, parse, position + 1).Some? ==> NthJson(blob, parse, position).Some?
    decreases position
  {
    if position > 1 && Extract(blob, parse).Some? {
      EarlierMatchesExist(Slice(blob, Extract(blob, parse).value.end), parse, position - 1);
    }
  }

  datatype OutputType = JsonType | LineType

  datatype Content = JsonContent(value: Json) | LineContent(line: string)

  /**
    The `content` memo of `Output`; `output` is `appCtx.Code.output` and an
    absent `position` prop defaults to 1.
   */
  function OutputContent(output: Option<seq<string>>, kind: OutputType, position: Option<int>, parse: Parser): (r: Option<Content>)
    ensures output.None? ==> r.None?
    ensures r.Some? ==> (r.value.JsonContent? <==> kind == JsonType)
    ensures output.Some? && kind == JsonType ==>
              && (r.Some? <==> NthJson(Concat(output.value), parse, position.GetOr(1)).Some?)
              && (r.Some? ==> r.value.value == NthJson(Concat(output.value), parse, position.GetOr(1)).value)
    ensures output.Some? && kind == LineType ==>
              && (r.Some? <==> 1 <= position.GetOr(1) <= |output.value|)
              && (r.Some? ==> r.value.line == output.value[position.GetOr(1) - 1])
  {
    var p := position.GetOr(1);
    match output
    case None => None
    case Some(lines) =>
      match kind
      case JsonType =>
        (match NthJson(Concat(lines), parse, p)
         case Some(v) => Some(JsonContent(v))
         case None => None)
      case LineType =>
        if |lines| >= p && p >= 1 then Some(LineContent(lines[p - 1])) else None
  }

  /** With no output, or an empty one, nothing is shown in either mode at any position. */
  lemma NoOutputNoContent(output: Option<seq<string>>, kind: OutputType, position: Option<int>, parse: Parser)
    requires output.None? || output == Some([])
    ensures OutputContent(output, kind, position, parse).None?
  {
    if output == Some([]) && kind == JsonType && position.GetOr(1) >= 1 {
      assert Concat([]) == "";
      assert Extract("", parse).None?;
    }
  }

  /** Line mode shows line `position` (counting from 1, default 1) exactly when the output is that long. */
  lemma LineModeSelectsLine(lines: seq<string>, position: Option<int>, parse: Parser)
    ensures OutputContent(Some(lines), LineType, position, parse).Some?
            <==> 1 <= position.GetOr(1) <= |lines|
    ensures OutputContent(Some(lines), LineType, position, parse).Some? ==>
              OutputContent(Some(lines), LineType, position, parse).value.line in lines
  {
  }

  /**
    Without a `position` prop JSON mode shows the first value found in the
    joined output, and line mode its first line.
   */
  lemma DefaultPositionIsFirst(lines: seq<string>, parse: Parser)
    ensures var m := Extract(Concat(lines), parse);
            OutputContent(Some(lines), JsonType, None, parse) == if m.Some? then Some(JsonContent(m.value.value)) else None
    ensures OutputContent(Some(lines), LineType, None, parse) == if |lines| > 0 then Some(LineContent(lines[0])) else None
  {
  }

  /** Whatever JSON mode shows is the parse of a stretch of the joined output ending in `}`. */
  lemma JsonContentFromOutput(lines: seq<string>, position: Option<int>, parse: Parser) returns (i: int, j: int)
    requires OutputContent(Some(lines), JsonType, position, parse).Some?
    ensures IsStretch(Concat(lines), parse, i, j, Some(OutputContent(Some(lines), JsonType, position, parse).value.value))
  {
    var blob := Concat(lines);
    var want := NthJson(blob, parse, position.GetOr(1));
    i, j := NthJsonStretch(blob, parse, position.GetOr(1));
    assert IsStretch(blob, parse, i, j, want);
    assert want == Some(OutputContent(Some(lines), JsonType, position, parse).value.value);
  }

  /** A blob of text with no `}` yields no match, whatever the parser. */
  lemma NoBraceNoMatch(str: string, parse: Parser)
    requires forall i :: 0 <= i < |str| ==> str[i] != '}'
    ensures Extract(str, parse).None?
  {
  }
}

=== FILE: ports.dfy ===
/**
  The port-scan handling of the session hook: which scanned ports are shown,
  and when the stored port list is replaced.
 */
module Ports {
  import opened Seqs

  /** The SDK's `OpenedPort`: `Ip`, `Port`, `State`. */
  datatype OpenedPort = OpenedPort(ip: string, port: int, state: string)

  /** The bind-all and IPv4 loopback addresses. */
  const ValidPortIPs: seq<string> := ["0.0.0.0", "127.0.0.1"]

  /** The port of the sandbox's own control daemon (devbookd). */
  const DaemonPort: int := 49982

  /** The ssh daemon's port. */
  const SshPort: int := 22

  /** A scanned port the user should see. */
  predicate Shown(p: OpenedPort) {
    && p.state == "LISTEN"
    && p.ip in ValidPortIPs
    && p.port != DaemonPort
    && p.port != SshPort
  }

  /**
    The `validPorts` filter. The result is an order-preserving sublist of the
    scan holding every shown entry as often as the scan does, and nothing else.
   */
  function FilterPorts(scan: seq<OpenedPort>): (r: seq<OpenedPort>)
    ensures forall i :: 0 <= i < |r| ==> Shown(r[i])
    ensures forall p :: multiset(r)[p] == if Shown(p) then multiset(scan)[p] else 0
    ensures IsSubsequence(r, scan)
    decreases |scan|
  {
    if |scan| == 0 then []
    else
      var rest := FilterPorts(scan[1..]);
      assert scan == [scan[0]] + scan[1..];
      if Shown(scan[0]) then [scan[0]] + rest else rest
  }

  /** The field-by-field comparison the hook applies to a stored and a new port. */
  predicate SamePort(a: OpenedPort, b: OpenedPort) {
    a.ip == b.ip && a.port == b.port && a.state == b.state
  }

  /** Same length, and every stored port has a match among the new ones. */
  predicate LooksUnchanged(stored: seq<OpenedPort>, latest: seq<OpenedPort>) {
    && |stored| == |latest|
    && forall i :: 0 <= i < |stored| ==> exists j :: 0 <= j < |latest| && SamePort(latest[j], stored[i])
  }

  /** The `setPorts` updater: keep the stored list when it looks unchanged, otherwise take the new one. */
  function UpdatePorts(stored: seq<OpenedPort>, latest: seq<OpenedPort>): (r: seq<OpenedPort>)
    ensures r == stored || r == latest
    ensures LooksUnchanged(stored, latest) ==> r == stored
    ensures !LooksUnchanged(stored, latest) ==> r == latest
  {
    if |stored| != |latest| then latest
    else if !(forall i :: 0 <= i < |stored| ==> exists j :: 0 <= j < |latest| && SamePort(latest[j], stored[i])) then latest
    else stored
  }

  /** A scan whose filtered result is a permutation of the stored list leaves the stored list in place. */
  lemma PermutedScanKeepsStored(stored: seq<OpenedPort>, latest: seq<OpenedPort>)
    requires multiset(stored) == multiset(latest)
    ensures UpdatePorts(stored, latest) == stored
  {
    assert |stored| == |multiset(stored)| == |multiset(latest)| == |latest|;
    forall i | 0 <= i < |stored|
      ensures exists j :: 0 <= j < |latest| && SamePort(latest[j], stored[i])
    {
      assert stored[i] in multiset(stored);
      assert stored[i] in multiset(latest);
      var j :| 0 <= j < |latest| && latest[j] == stored[i];
    }
  }

  /** Feeding the same filtered scan twice changes nothing the second time. */
  lemma UpdateIdempotent(stored: seq<OpenedPort>, latest: seq<OpenedPort>)
    ensures UpdatePorts(UpdatePorts(stored, latest), latest) == UpdatePorts(stored, latest)
  {
    if UpdatePorts(stored, latest) == latest {
      PermutedScanKeepsStored(latest, latest);
    }
  }

  /**
    When the stored list is duplicate-free the comparison is exact: the stored
    list is kept only when the new list is a permutation of it.
   */
  lemma {:induction false} DistinctStoredDetectsChange(stored: seq<OpenedPort>, latest: seq<OpenedPort>)
    requires Distinct(stored)
    requires UpdatePorts(stored, latest) == stored
    ensures multiset(latest) == multiset(stored)
  {
    if stored == latest {
      return;
    }
    assert LooksUnchanged(stored, latest);
    StoredWithinLatest(stored, latest);
    ElementsCard(stored);
    ElementsCard(latest);
    SubsetSameSize(Elements(stored), Elements(latest));
    SameElementsPermutation(stored, latest);
  }

  /** When the stored list looks unchanged, every stored port occurs in the new list. */
  lemma StoredWithinLatest(stored: seq<OpenedPort>, latest: seq<OpenedPort>)
    requires LooksUnchanged(stored, latest)
    ensures Elements(stored) <= Elements(latest)
  {
    forall x | x in Elements(stored) ensures x in Elements(latest) {
      var i :| 0 <= i < |stored| && stored[i] == x;
      var j :| 0 <= j < |latest| && SamePort(latest[j], stored[i]);
      assert latest[j] == x;
    }
  }

  /**
    With a repeated entry in the stored list a real change goes unnoticed:
    stored [A, A] and new [A, B] keep [A, A], so B is never shown.
   */
  lemma RepeatedStoredEntryHidesChange()
    ensures var a := OpenedPort("0.0.0.0", 3000, "LISTEN");
            var b := OpenedPort("0.0.0.0", 8080, "LISTEN");
            && UpdatePorts([a, a], [a, b]) == [a, a]
            && multiset([a, a]) != multiset([a, b])
  {
    var a := OpenedPort("0.0.0.0", 3000, "LISTEN");
    var b := OpenedPort("0.0.0.0", 8080, "LISTEN");
    assert SamePort([a, b][0], a);
    assert multiset([a, a])[b] == 0;
  }

  /** The scan of three ports: one kept, one dropped by address, one dropped as the daemon port. */
  lemma ScanExample()
    ensures FilterPorts([ OpenedPort("0.0.0.0", 3000, "LISTEN"),
                          OpenedPort("10.0.0.5", 80, "LISTEN"),
                          OpenedPort("0.0.0.0", 49982, "LISTEN") ])
            == [OpenedPort("0.0.0.0", 3000, "LISTEN")]
  {
    var scan := [ OpenedPort("0.0.0.0", 3000, "LISTEN"),
                  OpenedPort("10.0.0.5", 80, "LISTEN"),
                  OpenedPort("0.0.0.0", 49982, "LISTEN") ];
    assert !Shown(scan[1]) by { assert scan[1].ip != ValidPortIPs[0] && scan[1].ip != ValidPortIPs[1]; }
    assert scan[1..][1..] == [scan[2]];
  }
}

=== FILE: process_output.dfy ===
/** The output events the execution SDK streams back: one line of stdout or stderr each. */
module ProcessOutput {

  datatype OutType = Stdout | Stderr

  /** The SDK's `OutResponse`: stream, text and a timestamp in milliseconds. */
  datatype OutResponse = OutResponse(kind: OutType, line: string, timestamp: int)

  /** The text of each event, in order. */
  function Lines(outs: seq<OutResponse>): (r: seq<string>)
    ensures |r| == |outs|
    ensures forall i :: 0 <= i < |outs| ==> r[i] == outs[i].line
    decreases |outs|
  {
    if |outs| == 0 then [] else Lines(outs[..|outs| - 1]) + [outs[|outs| - 1].line]
  }

  /** The lines of two batches are the lines of the first followed by those of the second. */
  lemma LinesConcat(a: seq<OutResponse>, b: seq<OutResponse>)
    ensures Lines(a + b) == Lines(a) + Lines(b)
  {
    assert forall i :: 0 <= i < |a + b| ==> Lines(a + b)[i] == (Lines(a) + Lines(b))[i];
  }

  /** The lines of a non-empty batch: the first event's line, then the rest. */
  lemma LinesCons(outs: seq<OutResponse>)
    requires |outs| > 0
    ensures Lines(outs) == [outs[0].line] + Lines(outs[1..])
  {
    var all, rest := Lines(outs), Lines(outs[1..]);
    var cons := [outs[0].line] + rest;
    forall i | 0 <= i < |outs|
      ensures all[i] == cons[i]
    {
      if i > 0 {
        assert cons[i] == rest[i - 1] == outs[1..][i - 1].line;
      }
    }
    assert |all| == |cons|;
  }
}

=== FILE: published_snippet.dfy ===
/**
  `usePublishedCodeSnippet`: the URL the published props are fetched from,
  and the props derived from the fetched record, whose environment variables
  arrive as JSON text.
 */
module PublishedSnippet {
  import opened Wrappers
  import opened Json
  import opened JsString

  const EmbedOrigin: string := "https://embed.usedevbook.com/"

  /** The props URL of one snippet, before any inserted ids. */
  function PropsBase(codeSnippetID: string): string {
    EmbedOrigin + codeSnippetID + "/props"
  }

  /**
    The fetch URL: the base, followed directly by the comma-joined inserted
    ids when there are any (`insertedCodeSnippetIDs` defaults to `[]`).
   */
  function PropsUrl(codeSnippetID: string, inserted: Option<seq<string>>): (url: string)
    ensures |PropsBase(codeSnippetID)| <= |url|
    ensures url[..|PropsBase(codeSnippetID)|] == PropsBase(codeSnippetID)
    ensures |inserted.GetOr([])| == 0 ==> url == PropsBase(codeSnippetID)
    ensures |inserted.GetOr([])| > 0 ==> url[|PropsBase(codeSnippetID)|..] == Join(inserted.value, ',')
  {
    var ids := inserted.GetOr([]);
    var base := PropsBase(codeSnippetID);
    if |ids| > 0 then base + Join(ids, ',') else base
  }

  /** The inserted ids can be read back from the URL when none contains a comma. */
  lemma InsertedIdsRecoverable(codeSnippetID: string, ids: seq<string>)
    requires |ids| > 0
    requires forall k :: 0 <= k < |ids| ==> ',' !in ids[k]
    ensures Split(PropsUrl(codeSnippetID, Some(ids))[|PropsBase(codeSnippetID)|..], ',') == ids
  {
    SplitJoin(ids, ',');
  }

  /** Two different comma-free id lists give two different URLs. */
  lemma UrlDistinguishesInsertedIds(codeSnippetID: string, a: seq<string>, b: seq<string>)
    requires |a| > 0 && |b| > 0 && a != b
    requires forall k :: 0 <= k < |a| ==> ',' !in a[k]
    requires forall k :: 0 <= k < |b| ==> ',' !in b[k]
    ensures PropsUrl(codeSnippetID, Some(a)) != PropsUrl(codeSnippetID, Some(b))
  {
    InsertedIdsRecoverable(codeSnippetID, a);
    InsertedIdsRecoverable(codeSnippetID, b);
  }

  /** The runtime type of the fetched `codeSnippetEnvVars` field: text, or anything else. */
  datatype RawEnvVars = EnvText(text: string) | EnvNotText

  /** `PublishedCodeSnippet` as fetched. */
  datatype PublishedCodeSnippet = PublishedCodeSnippet(
    codeSnippetID: string,
    editorCode: string,
    runCode: string,
    title: string,
    envVars: RawEnvVars,
    template: string)

  /** The hook's result: the fetched fields with the environment parsed. */
  datatype SnippetProps = SnippetProps(
    codeSnippetID: string,
    editorCode: string,
    runCode: string,
    title: string,
    envVars: Json,
    template: string)

  /** Text that parses gives its value; anything else (not text, or a parse error) gives `{}`. */
  function ParseEnvVars(raw: RawEnvVars, parse: Parser): (r: Json)
    ensures raw.EnvText? && parse(raw.text).Some? ==> r == parse(raw.text).value
    ensures raw.EnvNotText? || parse(raw.text).None? ==> r == EmptyObject
  {
    match raw
    case EnvNotText => EmptyObject
    case EnvText(text) =>
      match parse(text)
      case Some(v) => v
      case None => EmptyObject
  }

  /** The memoised result: undefined until data arrives, then the data with parsed env vars. */
  function Resolve(data: Option<PublishedCodeSnippet>, parse: Parser): (r: Option<SnippetProps>)
    ensures r.None? <==> data.None?
    ensures r.Some? ==> r.value.envVars == ParseEnvVars(data.value.envVars, parse)
  {
    match data
    case None => None
    case Some(d) =>
      Some(SnippetProps(d.codeSnippetID, d.editorCode, d.runCode, d.title,
                        ParseEnvVars(d.envVars, parse), d.template))
  }

  /** Puts raw env text back into resolved props. */
  function WithRawEnvVars(p: SnippetProps, raw: RawEnvVars): PublishedCodeSnippet {
    PublishedCodeSnippet(p.codeSnippetID, p.editorCode, p.runCode, p.title, raw, p.template)
  }

  /** Every field but the env vars is copied unchanged: restoring the raw env text gives the fetched record back. */
  lemma ResolveCopiesOtherFields(d: PublishedCodeSnippet, parse: Parser)
    ensures WithRawEnvVars(Resolve(Some(d), parse).value, d.envVars) == d
  {
  }
}

=== FILE: seqs.dfy ===
/** Generic facts about sequences used by the list-shaped operations. */
module Seqs {

  /** No element occurs twice. */
  ghost predicate Distinct<T>(s: seq<T>) {
    forall i, j :: 0 <= i < j < |s| ==> s[i] != s[j]
  }

  /** The set of elements of `s`. */
  function Elements<T>(s: seq<T>): set<T> {
    set x | x in s
  }

  /** `a` is an order-preserving sublist of `b` (greedy left-to-right matching). */
  predicate IsSubsequence<T(==)>(a: seq<T>, b: seq<T>)
    decreases |b|
  {
    if |a| == 0 then true
    else if |b| == 0 then false
    else if a[0] == b[0] then IsSubsequence(a[1..], b[1..])
    else IsSubsequence(a, b[1..])
  }

  /**
    The `filter(onlyUnique)` idiom: the first occurrence of every element,
    in order of first occurrence.
   */
  function Dedup<T(==)>(s: seq<T>): (r: seq<T>)
    ensures forall i :: 0 <= i < |r| ==> r[i] in s
    ensures forall i :: 0 <= i < |s| ==> s[i] in r
    ensures Distinct(r)
    decreases |s|
  {
    if |s| == 0 then []
    else
      var d := Dedup(s[..|s| - 1]);
      if s[|s| - 1] in d then d else d + [s[|s| - 1]]
  }

  /** A list never has more distinct elements than entries; it has exactly as many when it is duplicate-free. */
  lemma {:induction false} ElementsCard<T>(s: seq<T>)
    ensures |Elements(s)| <= |s|
    ensures |Elements(s)| == |s| <==> Distinct(s)
    decreases |s|
  {
    if |s| == 0 {
      assert Elements(s) == {};
    } else {
      var t := s[1..];
      ElementsCard(t);
      assert Elements(s) == Elements(t) + {s[0]} by {
        forall x | x in Elements(s) ensures x in Elements(t) + {s[0]} {
          var i :| 0 <= i < |s| && s[i] == x;
          if i > 0 { assert t[i - 1] == x; }
        }
      }
      if s[0] in t {
        var k :| 0 <= k < |t| && t[k] == s[0];
        assert s[k + 1] == s[0];
        assert !Distinct(s);
      } else {
        assert |Elements(s)| == |Elements(t)| + 1;
        if Distinct(t) {
          forall i, j | 0 <= i < j < |s| ensures s[i] != s[j] {
            if i == 0 {
              assert s[j] == t[j - 1];
            } else {
              assert s[i] == t[i - 1] && s[j] == t[j - 1];
            }
          }
        } else {
          var i, j :| 0 <= i < j < |t| && t[i] == t[j];
          assert s[i + 1] == s[j + 1];
        }
      }
    }
  }

  /** In a duplicate-free list every member occurs exactly once. */
  lemma {:induction false} DistinctMultiplicity<T>(s: seq<T>, x: T)
    requires Distinct(s)
    ensures multiset(s)[x] == if x in s then 1 else 0
    decreases |s|
  {
    if |s| > 0 {
      var t := s[1..];
      assert s == [s[0]] + t;
      assert Distinct(t) by {
        forall i, j | 0 <= i < j < |t| ensures t[i] != t[j] {
          assert t[i] == s[i + 1] && t[j] == s[j + 1];
        }
      }
      DistinctMultiplicity(t, x);
      if s[0] in t {
        var k :| 0 <= k < |t| && t[k] == s[0];
        assert s[k + 1] == s[0];
      }
      assert x in s <==> x == s[0] || x in t;
    }
  }

  /** Two duplicate-free lists with the same elements are permutations of each other. */
  lemma SameElementsPermutation<T>(a: seq<T>, b: seq<T>)
    requires Distinct(a) && Distinct(b)
    requires Elements(a) == Elements(b)
    ensures multiset(a) == multiset(b)
  {
    forall x ensures multiset(a)[x] == multiset(b)[x] {
      DistinctMultiplicity(a, x);
      DistinctMultiplicity(b, x);
      assert x in a <==> x in Elements(a);
      assert x in b <==> x in Elements(b);
    }
  }

  /** A duplicate-free list whose elements all occur in another list is no longer than that list's distinct part. */
  lemma ContainedCard<T>(a: seq<T>, b: seq<T>)
    requires Distinct(a) && Distinct(b)
    requires forall i :: 0 <= i < |a| ==> a[i] in b
    ensures |a| <= |b|
  {
    ElementsCard(a);
    ElementsCard(b);
    assert Elements(a) <= Elements(b);
    var extra := Elements(b) - Elements(a);
    assert Elements(b) == Elements(a) + extra;
  }

  /** A subset at least as large as its superset is the whole superset. */
  lemma SubsetSameSize<T>(a: set<T>, b: set<T>)
    requires a <= b && |b| <= |a|
    ensures a == b
  {
    var extra := b - a;
    assert b == a + extra;
  }

  /** A slice of a suffix is a slice of the whole sequence. */
  lemma SliceOfSuffix<T>(s: seq<T>, k: int, i: int, j: int)
    requires 0 <= k <= |s| && 0 <= i <= j <= |s| - k
    ensures s[k..][i..j] == s[k + i..k + j]
    ensures j > 0 ==> s[k..][j - 1] == s[k + j - 1]
  {
  }

  /** Appending the head of `b` and then its tail is appending `b`. */
  lemma ConsAfter<T>(a: seq<T>, b: seq<T>)
    requires |b| > 0
    ensures (a + [b[0]]) + b[1..] == a + b
  {
    assert [b[0]] + b[1..] == b;
  }
}

=== FILE: session.dfy ===
/**
  The `useSession` hook as an explicit state machine. React state setters
  become fields of `HookState`; effects, promise continuations and SDK
  callbacks become transition functions the environment applies in the
  order it delivers them.

  SDK `Session` objects are compared by identity in the hook. Here each one
  is a `Handle` whose serial is drawn from `nextSerial`, so two sessions are
  the same exactly when their handles are equal.
 */
module Session {
  import opened Wrappers
  import opened ProcessOutput
  import opened Ports

  /** `SessionState`: whether the SDK session is connected. */
  datatype ConnectionState = Open | Closed

  /** `CodeSnippetState`: the two extended states plus the SDK's `Running` and `Stopped`. */
  datatype SnippetState = Loading | Running | Stopped | Failed

  type EnvVars = map<string, string>

  /** One SDK session object: its identity and the snippet it was created for. */
  datatype Handle = Handle(serial: nat, snippetId: string, legacy: bool)

  /** The `sessionState` record; `exposesOpen` says whether its `open` function is set. */
  datatype SessionRecord = SessionRecord(
    session: Option<Handle>,
    state: ConnectionState,
    id: Option<string>,
    exposesOpen: bool)

  /** `runTrigger`: the code and environment of the latest accepted run. */
  datatype RunTrigger = RunTrigger(code: string, envVars: Option<EnvVars>)

  /**
    The hook's state. `snippetReady` says whether the recorded session object
    has its `codeSnippet` manager, which the SDK sets up once `open()` has
    resolved.
   */
  datatype HookState = HookState(
    record: SessionRecord,
    cs: SnippetState,
    output: seq<OutResponse>,
    ports: seq<OpenedPort>,
    trigger: Option<RunTrigger>,
    nextSerial: nat,
    snippetReady: bool)

  /** The hook's state before any effect has run. */
  function Initial(): HookState {
    HookState(SessionRecord(None, Closed, None, false), Loading, [], [], None, 0, false)
  }

  /** The hook's options; an absent `persistentEdits` or `manualOpen` is `false`. */
  datatype Opts = Opts(
    codeSnippetID: Option<string>,
    persistentEdits: bool,
    apiKey: Option<string>,
    manualOpen: bool)

  /** Snippets that are served by the legacy SDK. */
  const LegacyCodeSnippets: seq<string> := ["BpZS9GOnfQYr", "O99CUbQ45L97"]

  /** JavaScript truthiness of an optional string: present and not empty. */
  predicate Truthy(v: Option<string>) {
    v.Some? && v.value != ""
  }

  /** The two early returns of `initSession`. */
  predicate CreatesSession(opts: Opts) {
    Truthy(opts.codeSnippetID) && !(opts.persistentEdits && !Truthy(opts.apiKey))
  }

  /**
    The well-formedness the hook maintains: an open record always names a
    session, the record's id is that session's snippet, and every session the
    record names has already been issued.
   */
  ghost predicate Inv(s: HookState) {
    && (s.record.state == Open ==> s.record.session.Some?)
    && (s.record.session.Some? <==> s.record.id.Some?)
    && (s.record.session.Some? ==>
          && s.record.id == Some(s.record.session.value.snippetId)
          && s.record.session.value.serial < s.nextSerial)
    && (s.record.exposesOpen ==> s.record.session.Some?)
    && (s.snippetReady ==> s.record.session.Some?)
  }

  datatype InitOutcome = InitOutcome(state: HookState, created: Option<Handle>, opensNow: bool)

  /**
    The `initSession` effect. A new session starts closed under the snippet's
    id, with a fresh identity; it is opened at once unless `manualOpen` is set.
    The snippet state, output, ports and trigger are NOT reset.
   */
  function InitSession(s: HookState, opts: Opts): (r: InitOutcome)
    ensures r.created.None? <==> !CreatesSession(opts)
    ensures r.created.None? ==> r.state == s && !r.opensNow
    ensures r.created.Some? ==>
              && r.created.value.serial == s.nextSerial
              && r.state.nextSerial == s.nextSerial + 1
              && r.created.value.snippetId == opts.codeSnippetID.value
              && (r.created.value.legacy <==> opts.codeSnippetID.value in LegacyCodeSnippets)
              && r.state.record.session == r.created
              && r.state.record.state == Closed
              && r.state.record.id == opts.codeSnippetID
              && r.state.record.exposesOpen == opts.manualOpen
              && r.opensNow == !opts.manualOpen
              && !r.state.snippetReady
    ensures r.state.cs == s.cs && r.state.output == s.output
    ensures r.state.ports == s.ports && r.state.trigger == s.trigger
  {
    if !CreatesSession(opts) then InitOutcome(s, None, false)
    else
      var id := opts.codeSnippetID.value;
      var h := Handle(s.nextSerial, id, id in LegacyCodeSnippets);
      var record := SessionRecord(Some(h), Closed, Some(id), opts.manualOpen);
      InitOutcome(s.(record := record, nextSerial := s.nextSerial + 1, snippetReady := false), Some(h), !opts.manualOpen)
  }

  /**
    What a session object reports back: the SDK callbacks, and the outcome of
    its `open()` promise (`OpenResolved` / `OpenRejected`).
   */
  datatype Callback =
    | StateChange(state: SnippetState)
    | StdoutLine(out: OutResponse)
    | StderrLine(out: OutResponse)
    | ScanPorts(scan: seq<OpenedPort>)
    | Disconnect
    | Reconnect
    | Close
    | OpenResolved
    | OpenRejected

  /** The guarded record update `s.session === newSession ? { ...s, state } : s`. */
  function SetIfCurrent(rec: SessionRecord, from: Handle, state: ConnectionState): SessionRecord {
    if rec.session == Some(from) then rec.(state := state) else rec
  }

  /**
    Applies a callback fired by the session `from`. Only the connection state
    is guarded by identity: a callback from a superseded session still sets
    the snippet state, the output and the ports.
   */
  function OnCallback(s: HookState, from: Handle, cb: Callback): (r: HookState)
    ensures s.record.session != Some(from) ==> r.record == s.record
    ensures r.record.(state := s.record.state) == s.record
    ensures r.trigger == s.trigger && r.nextSerial == s.nextSerial
    ensures cb.Disconnect? ==> r.cs == Loading && (s.record.session == Some(from) ==> r.record.state == Closed)
    ensures cb.Reconnect? ==> r.cs == Stopped && (s.record.session == Some(from) ==> r.record.state == Open)
    ensures cb.Close? ==> r.cs == Failed && (s.record.session == Some(from) ==> r.record.state == Closed)
    ensures cb.OpenResolved? ==> r.cs == s.cs && (s.record.session == Some(from) ==> r.record.state == Open)
    ensures r.snippetReady <==> s.snippetReady || (cb.OpenResolved? && s.record.session == Some(from))
    ensures cb.OpenRejected? ==> r == s
    ensures cb.StateChange? ==> r.cs == cb.state && r.record == s.record
    ensures (cb.StdoutLine? || cb.StderrLine? || cb.ScanPorts?) ==> r.cs == s.cs && r.record == s.record
    ensures (cb.StdoutLine? || cb.StderrLine?) ==> r.output == s.output + [cb.out]
    ensures !(cb.StdoutLine? || cb.StderrLine?) ==> r.output == s.output
    ensures cb.ScanPorts? ==> r.ports == UpdatePorts(s.ports, FilterPorts(cb.scan))
    ensures cb.ScanPorts? ==> forall i :: 0 <= i < |r.ports| ==> r.ports[i] in s.ports || Shown(r.ports[i])
    ensures !cb.ScanPorts? ==> r.ports == s.ports
  {
    match cb
    case StateChange(state) => s.(cs := state)
    case StdoutLine(out) => s.(output := s.output + [out])
    case StderrLine(out) => s.(output := s.output + [out])
    case ScanPorts(scan) => s.(ports := UpdatePorts(s.ports, FilterPorts(scan)))
    case Disconnect => s.(cs := Loading, record := SetIfCurrent(s.record, from, Closed))
    case Reconnect => s.(cs := Stopped, record := SetIfCurrent(s.record, from, Open))
    case Close => s.(record := SetIfCurrent(s.record, from, Closed), cs := Failed)
    case OpenResolved =>
      s.(record := SetIfCurrent(s.record, from, Open), snippetReady := s.snippetReady || s.record.session == Some(from))
    case OpenRejected => s
  }

  /**
    `run(code, envVars)`: ignored unless the connection is open; otherwise it
    clears the output, marks the snippet running and records the trigger.
   */
  function Run(s: HookState, code: string, envVars: Option<EnvVars>): (r: HookState)
    ensures s.record.state != Open ==> r == s
    ensures s.record.state == Open ==>
              && r.output == []
              && r.cs == Running
              && r.trigger == Some(RunTrigger(code, envVars))
    ensures r.cs != s.cs ==> s.record.state == Open && r.cs == Running
    ensures r.record == s.record && r.ports == s.ports && r.nextSerial == s.nextSerial
    ensures r.snippetReady == s.snippetReady
  {
    if s.record.state != Open then s
    else s.(output := [], cs := Running, trigger := Some(RunTrigger(code, envVars)))
  }

  /** A call of `codeSnippet.run` on a session object. */
  datatype Dispatch = Dispatch(to: Handle, code: string, envVars: Option<EnvVars>)

  /**
    The `triggerRun` effect: the run handed to the current session's code
    snippet, if any. It dispatches only once the output is empty, so no line
    of an earlier run can land in the new run's log, and only once the
    session has its code snippet; it does not look at the connection state.
   */
  function TriggerDispatch(s: HookState): (d: Option<Dispatch>)
    ensures d.Some? <==> s.trigger.Some? && |s.output| == 0 && s.record.session.Some? && s.snippetReady
    ensures d.Some? ==> && d.value.to == s.record.session.value
                        && d.value.code == s.trigger.value.code
                        && d.value.envVars == s.trigger.value.envVars
  {
    if s.trigger.None? || |s.output| > 0 then None
    else if s.record.session.None? || !s.snippetReady then None
    else Some(Dispatch(s.record.session.value, s.trigger.value.code, s.trigger.value.envVars))
  }

  /** A `run` or `stop` promise settling: a defined state overwrites the snippet state. */
  function ApplyReply(s: HookState, reply: Option<SnippetState>): (r: HookState)
    ensures r.cs == reply.GetOr(s.cs)
    ensures r.(cs := s.cs) == s
  {
    match reply
    case Some(state) => s.(cs := state)
    case None => s
  }

  datatype StopStep = StopStep(state: HookState, sentTo: Option<Handle>)

  /**
    The synchronous part of `stop()`: ignored unless open; otherwise the
    snippet state becomes `Loading` and the current session's code snippet,
    when it has one, is asked to stop.
   */
  function Stop(s: HookState): (r: StopStep)
    ensures s.record.state != Open ==> r.state == s && r.sentTo.None?
    ensures s.record.state == Open ==> r.state.cs == Loading
    ensures r.sentTo.Some? <==> s.record.state == Open && s.record.session.Some? && s.snippetReady
    ensures r.sentTo.Some? ==> r.sentTo == s.record.session
    ensures r.state.(cs := s.cs) == s
  {
    if s.record.state != Open then StopStep(s, None)
    else StopStep(s.(cs := Loading), if s.snippetReady then s.record.session else None)
  }

  /**
    `getHostname(port)`: undefined unless open; otherwise whatever the current
    session's `getHostname` answers (`resolve` stands for that SDK call).
   */
  function GetHostname(s: HookState, port: Option<int>, resolve: (Handle, Option<int>) -> Option<string>): (r: Option<string>)
    ensures s.record.state != Open ==> r.None?
    ensures s.record.state == Open && s.record.session.Some? ==> r == resolve(s.record.session.value, port)
    ensures r.Some? ==> s.record.state == Open && s.record.session.Some?
  {
    if s.record.state != Open then None
    else if s.record.session.None? then None
    else resolve(s.record.session.value, port)
  }

  /** The exposed `open` function: present only for a manually opened session, and bound to it. */
  function ManualOpen(s: HookState): (r: Option<Handle>)
    ensures r.Some? <==> s.record.exposesOpen && s.record.session.Some?
    ensures r.Some? ==> r == s.record.session
  {
    if s.record.exposesOpen then s.record.session else None
  }

  /** Everything that can happen to the hook, one step at a time. */
  datatype Input =
    | Configure(opts: Opts)
    | Backend(from: Handle, cb: Callback)
    | RunCode(code: string, envVars: Option<EnvVars>)
    | StopCode
    | Settle(reply: Option<SnippetState>)

  function Next(s: HookState, i: Input): HookState {
    match i
    case Configure(opts) => InitSession(s, opts).state
    case Backend(from, cb) => OnCallback(s, from, cb)
    case RunCode(code, envVars) => Run(s, code, envVars)
    case StopCode => Stop(s).state
    case Settle(reply) => ApplyReply(s, reply)
  }

  function Exec(s: HookState, inputs: seq<Input>): HookState
    decreases |inputs|
  {
    if |inputs| == 0 then s else Exec(Next(s, inputs[0]), inputs[1..])
  }

  /** Every step keeps the hook's well-formedness. */
  lemma NextPreservesInv(s: HookState, i: Input)
    requires Inv(s)
    ensures Inv(Next(s, i))
  {
    match i
    case Configure(opts) =>
    case Backend(from, cb) =>
      assert Next(s, i).record.session == s.record.session;
    case RunCode(code, envVars) =>
    case StopCode =>
    case Settle(reply) =>
  }

  /** Every state reachable from the initial one is well-formed. */
  lemma {:induction false} ExecPreservesInv(s: HookState, inputs: seq<Input>)
    requires Inv(s)
    ensures Inv(Exec(s, inputs))
    decreases |inputs|
  {
    if |inputs| > 0 {
      NextPreservesInv(s, inputs[0]);
      ExecPreservesInv(Next(s, inputs[0]), inputs[1..]);
    }
  }

  lemma InitialIsWellFormed()
    ensures Inv(Initial())
  {
  }

  /** Callbacks delivered in order by one session object. */
  function Deliver(s: HookState, from: Handle, cbs: seq<Callback>): HookState
    decreases |cbs|
  {
    if |cbs| == 0 then s else Deliver(OnCallback(s, from, cbs[0]), from, cbs[1..])
  }

  predicate IsOutput(cb: Callback) {
    cb.StdoutLine? || cb.StderrLine?
  }

  /** The events carried by a run of output callbacks. */
  function EventsOf(cbs: seq<Callback>): (r: seq<OutResponse>)
    requires forall k :: 0 <= k < |cbs| ==> IsOutput(cbs[k])
    ensures |r| == |cbs|
    decreases |cbs|
  {
    if |cbs| == 0 then []
    else
      assert IsOutput(cbs[0]);
      [cbs[0].out] + EventsOf(cbs[1..])
  }

  /** Stdout and stderr lines land at the end of the log, in delivery order, none lost. */
  lemma {:induction false} OutputAppendsInOrder(s: HookState, from: Handle, cbs: seq<Callback>)
    requires forall k :: 0 <= k < |cbs| ==> IsOutput(cbs[k])
    ensures Deliver(s, from, cbs).output == s.output + EventsOf(cbs)
    decreases |cbs|
  {
    if |cbs| > 0 {
      var t := OnCallback(s, from, cbs[0]);
      OutputAppendsInOrder(t, from, cbs[1..]);
      assert s.output + EventsOf(cbs) == (s.output + [cbs[0].out]) + EventsOf(cbs[1..]);
    }
  }

  /** However many callbacks a superseded session fires, the connection record is untouched. */
  lemma {:induction false} StaleCallbacksKeepRecord(s: HookState, from: Handle, cbs: seq<Callback>)
    requires s.record.session != Some(from)
    ensures Deliver(s, from, cbs).record == s.record
    decreases |cbs|
  {
    if |cbs| > 0 {
      StaleCallbacksKeepRecord(OnCallback(s, from, cbs[0]), from, cbs[1..]);
    }
  }

  /**
    Creating a new session makes the one it replaces stale: the new handle's
    serial is fresh, so the old handle is no longer recorded and none of its
    callbacks can touch the connection record again.
   */
  lemma ReplacedSessionGoesStale(s: HookState, opts: Opts, cbs: seq<Callback>)
    requires Inv(s) && s.record.session.Some? && CreatesSession(opts)
    ensures var t := Next(s, Configure(opts));
            && t.record.session != s.record.session
            && Deliver(t, s.record.session.value, cbs).record == t.record
  {
    var t := Next(s, Configure(opts));
    assert t.record.session.value.serial == s.nextSerial;
    StaleCallbacksKeepRecord(t, s.record.session.value, cbs);
  }

  /** Callbacks never change which session the record names, so the guard decision is stable. */
  lemma {:induction false} CallbacksKeepSessionIdentity(s: HookState, from: Handle, cbs: seq<Callback>)
    ensures Deliver(s, from, cbs).record.session == s.record.session
    ensures Deliver(s, from, cbs).record.id == s.record.id
    ensures Deliver(s, from, cbs).record.exposesOpen == s.record.exposesOpen
    decreases |cbs|
  {
    if |cbs| > 0 {
      CallbacksKeepSessionIdentity(OnCallback(s, from, cbs[0]), from, cbs[1..]);
    }
  }

  /**
    A session that opens, loses its connection and gets it back: closed and
    loading while disconnected, open and stopped after reconnecting.
   */
  lemma DisconnectReconnectScenario(s: HookState, opts: Opts)
    requires CreatesSession(opts)
    ensures var init := InitSession(s, opts);
            var h := init.created.value;
            var up := OnCallback(init.state, h, OpenResolved);
            var lost := OnCallback(up, h, Disconnect);
            var back := OnCallback(lost, h, Reconnect);
            && init.state.record.state == Closed
            && up.record.state == Open
            && lost.record.state == Closed && lost.cs == Loading
            && back.record.state == Open && back.cs == Stopped
  {
  }

  /** A failed `open()` is swallowed: the new session stays closed. */
  lemma FailedOpenStaysClosed(s: HookState, opts: Opts)
    requires CreatesSession(opts)
    ensures var init := InitSession(s, opts);
            OnCallback(init.state, init.created.value, OpenRejected).record.state == Closed
  {
  }

  /**
    Two runs in a row: the log is cleared, the second run's code is the one
    handed to the session, and a line arriving afterwards blocks any further dispatch.
   */
  lemma RunTwiceScenario(s: HookState, c1: string, c2: string, line: OutResponse)
    requires s.record.state == Open && s.record.session.Some? && s.snippetReady
    ensures var twice := Run(Run(s, c1, None), c2, None);
            && twice.output == []
            && TriggerDispatch(twice) == Some(Dispatch(s.record.session.value, c2, None))
            && TriggerDispatch(OnCallback(twice, s.record.session.value, StdoutLine(line))).None?
  {
  }

  /**
    A new session gets no run until its own `open()` has resolved: before
    that it has no code snippet, and another session's `open()` does not
    count. Afterwards a pending trigger goes to the new session.
   */
  lemma DispatchWaitsForOpen(s: HookState, opts: Opts, other: Handle)
    requires CreatesSession(opts)
    ensures var init := InitSession(s, opts);
            var h := init.created.value;
            && TriggerDispatch(init.state).None?
            && (other != h ==> TriggerDispatch(OnCallback(init.state, other, OpenResolved)).None?)
            && (s.trigger.Some? && |s.output| == 0 ==>
                  TriggerDispatch(OnCallback(init.state, h, OpenResolved))
                    == Some(Dispatch(h, s.trigger.value.code, s.trigger.value.envVars)))
  {
  }

  /**
    With `manualOpen` the exposed `open` is bound to the session created with
    it, and stays bound whatever callbacks arrive afterwards.
   */
  lemma {:induction false} ManualOpenStaysBound(s: HookState, opts: Opts, from: Handle, cbs: seq<Callback>)
    requires CreatesSession(opts) && opts.manualOpen
    ensures var init := InitSession(s, opts);
            && ManualOpen(init.state) == init.created
            && ManualOpen(Deliver(init.state, from, cbs)) == init.created
  {
    var init := InitSession(s, opts);
    CallbacksKeepSessionIdentity(init.state, from, cbs);
  }

  /**
    Without `manualOpen` nothing is exposed, and the session is opened
    straight away instead.
   */
  lemma AutomaticOpenExposesNothing(s: HookState, opts: Opts)
    requires CreatesSession(opts) && !opts.manualOpen
    ensures var init := InitSession(s, opts);
            ManualOpen(init.state).None? && init.opensNow
  {
  }

  /**
    Host names come only from the recorded session, once it is open: a new
    session answers nothing until its own `open()` resolves, and then every
    port is resolved by that session.
   */
  lemma HostnameFollowsRecordedSession(s: HookState, opts: Opts, other: Handle, port: Option<int>,
                                       resolve: (Handle, Option<int>) -> Option<string>)
    requires CreatesSession(opts)
    ensures var init := InitSession(s, opts);
            var h := init.created.value;
            && GetHostname(init.state, port, resolve).None?
            && (other != h ==> GetHostname(OnCallback(init.state, other, OpenResolved), port, resolve).None?)
            && GetHostname(OnCallback(init.state, h, OpenResolved), port, resolve) == resolve(h, port)
  {
  }
}

=== FILE: wrappers.dfy ===
/** Optional values: the model's stand-in for TypeScript's `undefined`. */
module Wrappers {

  datatype Option<+T> = None | Some(value: T) {

    /** The wrapped value, or `default` when there is none. */
    function GetOr(default: T): T {
      match this
      case Some(v) => v
      case None => default
    }
  }
}
